=== FILE: README.md ===
# Hitchhiker's Guide demo: game logic in Dafny

This project models the engine-independent game logic of a Unity puzzle game.
Player units carry packages across a tiled level. The player places signs to
steer them past patrolling enemies into a goal, and stays within a budget.
Seven scripts hold that logic. Each becomes a Dafny module of immutable records
and pure step functions, and everything the engine supplies (raycasts, tags,
animator queries, UI state, the typewriter's progress) becomes a plain input.

- `EnemyAI` (`enemy_ai.dfy`): the patrolling enemy. It waits and watches ahead.
  When it sees a player it winds up, charges to where the player stood, cools
  down and walks back. Touching another enemy knocks it onto the last tile it
  left and stuns it until the level resets. `Tick` is one `FixedUpdate`.
  `Contact` is `OnTriggerEnter` and `ResetState` is `resetState`.
- `Geometry` (`geometry.dfy`): real 3-vectors and Unity's clamping
  `Vector3.Lerp`. `Ratio` gives the float quotient `elapsed / total`, with
  `None` for the NaN of `0f/0`.
- `MoneyManager` (`money_manager.dfy`): a level's budget and item stock, and
  the money label ("NO CASH", "$950", "$12,005").
- `TutorialMoneyManager` (`tutorial_money_manager.dfy`): the tutorial's budget.
  Its stock and prices live only as label text ("x3") that is parsed again on
  every purchase and refund.
- `GoalTrigger` (`goal_trigger.dfy`): package delivery, the level-done test,
  the finish-once latch, the performance rating, and unlocking levels and
  recording high scores.
- `StringUtility` (`string_utility.dfy`): the typewriter's escape-sequence
  rendering, without its timing.
- `Holding` (`holding.dfy`): the holding pen. It slows and holds players until
  a threshold is reached, then releases them all and shuts down for good.
- `TutorialStateManager` (`tutorial_state_manager.dfy`): the tutorial
  sequencer's forty-one states, and the `textFlag` handshake with the
  typewriter.
- `Numerals` and `Base` (`numerals.dfy`, `base.dfy`): C#'s `int.ToString()`,
  the accepted subset of `int.Parse` / `int.TryParse`, and `Option`.

Behaviour of the code worth knowing:

- A zero frame count makes the interpolation ratio NaN. There is no
  jump-to-end guard, so the position is `None` (unspecified).
- An enemy collision does not reset `elapsedFrames`. The collision animation
  continues from the current count toward the current `lerpFrameTotal`.
- The collision slide aims at `lastTile` and has no fallback to the rest
  position. The model assumes `Start`'s downward raycast hits a tile, so a
  tile is always recorded.
- The return's frame count is taken from the distance of the latest forward
  raycast. That is the hit that started the charge, because no raycast writes
  `hit` between the sighting and the end of the charge (the downward tile
  raycast runs every tick but writes `hit2`).
- A tutorial line never finishes on the frame it starts. Starting the
  typewriter coroutine runs it up to its first pause, and that already sets
  `IsTyping`, so the same frame's `!IsTyping` test fails. Every narration line
  has a printable character, so this holds for all of them.
- The level-done test is an exact count (`delivered + lost == NumPackages`).
  Once more packages are accounted for than the level has, it never finishes
  until a reset.
- A quantity label's first character is dropped without being checked to be
  an 'x'.

## Model

| member | source | states |
|---|---|---|
| EnemyAI.Init | Assets/Scripts/EnemyAI.cs:39-53 | The enemy starts waiting on the tile beneath it, with both tile slots on that tile and its frame counters valid |
| EnemyAI.ReturnFramesAtLeastCharge | Assets/Scripts/EnemyAI.cs:80-102 | For a non-negative distance, the charge's `(int)(12*d)` frames are non-negative and never more than the return's `(int)(25*d)` |
| EnemyAI.Truncate | Assets/Scripts/EnemyAI.cs:80 | C#'s `(int)` cast truncates toward zero: a non-negative value is rounded down, a negative one up |
| EnemyAI.ChargeFrames | Assets/Scripts/EnemyAI.cs:80 | The charge takes twelve frames per unit of distance, with any fraction of a frame dropped |
| EnemyAI.ReturnFrames | Assets/Scripts/EnemyAI.cs:102 | The return takes twenty-five frames per unit of distance, with any fraction of a frame dropped |
| EnemyAI.FramesAtWholeDistance | Assets/Scripts/EnemyAI.cs:80-102 | A target a whole number n of units away takes exactly 12n frames to charge at and 25n to return from, so no frame is dropped (120 and 250 at ten units) |
| EnemyAI.Step | Assets/Scripts/EnemyAI.cs:58-145 | Waiting: a forward hit tagged player starts the wind-up, stores the hit position as target and 12x the distance as frame total, and sets ChargeUp; any other hit or a miss stays waiting at the rest position. The wind-up and cool-down states advance only on their clip tag and clear their flag, changing nothing else. The three moving states count one frame per tick until the total, then reset the count. They move only the body, so target, frame total, hit distance and animator flags carry through a charge. At the end the charge sets the 25x return total and CoolDown, the return goes to waiting, and the slide goes to stunned. Stunned never changes. reset_wait leaves only when the animator reports PreWaitingState, and clears it. The target changes only on a sighting: waiting without a player hit keeps it, and outside waiting the target and hit distance never change |
| EnemyAI.TrackTiles | Assets/Scripts/EnemyAI.cs:147-156 | No ground hit, or the collision animation: tiles untouched. A new tile shifts the current tile into `lastTile`. While waiting, both slots are set to the tile underfoot |
| EnemyAI.Tick | Assets/Scripts/EnemyAI.cs:56-157 | One FixedUpdate keeps `0 <= elapsedFrames <= lerpFrameTotal`, with the count at 0 outside the moving states, given non-negative raycast distances. Waiting always ends with both tiles on the tile underfoot |
| EnemyAI.Contact | Assets/Scripts/EnemyAI.cs:159-169 | An enemy contact forces the collision animation and sets EnemyCollision from any state, leaving both frame counters as they were. A player contact only reports that the player is lost. The frame invariant survives |
| EnemyAI.ResetState | Assets/Scripts/EnemyAI.cs:171-179 | From any state: waiting, count 0, the three request flags false, the LevelReset trigger set, counters still valid |
| EnemyAI.ResetIdempotent | Assets/Scripts/EnemyAI.cs:171-179 | Resetting twice equals resetting once |
| EnemyAI.ChargeCompletes | Assets/Scripts/EnemyAI.cs:92-105 | Whatever the sensors say, a charge ends after `total - elapsed + 1` ticks. It is then in chargingAnimationEnd with count 0, the return total and CoolDown set, and the body on the target when the total is positive |
| EnemyAI.ReturnCompletes | Assets/Scripts/EnemyAI.cs:112-123 | The return ends after `total - elapsed + 1` ticks, waiting with count 0 and the body back at its rest position when the total is positive |
| EnemyAI.CollisionEndsOnLastTile | Assets/Scripts/EnemyAI.cs:124-135 | The collision slide ends stunned, count 0, exactly on the `lastTile` it started with (tiles are not tracked meanwhile) |
| EnemyAI.StunnedStays | Assets/Scripts/EnemyAI.cs:136-138 | A stunned enemy stays stunned and in place for any number of ticks |
| EnemyAI.FullCycle | Assets/Scripts/EnemyAI.cs:72-123 | Sighting at distance d, a wind-up clip, 12d+1 charge ticks, a cool-down clip and 25d+1 return ticks. The charge ends on the position where the player was seen. The enemy is then waiting again with count 0, still aimed at that spot, at its rest position |
| EnemyAI.CollisionPreemptsCharge | Assets/Scripts/EnemyAI.cs:164-167 | An enemy contact mid-charge switches to the collision animation with its flag raised, and carries the frame counters over unchanged |
| Geometry.Lerp | Assets/Scripts/EnemyAI.cs:94 | `Vector3.Lerp` clamps: a parameter at or below 0 gives the start, at or above 1 the end |
| Geometry.LerpOnSegment | Assets/Scripts/EnemyAI.cs:94 | Every interpolated point lies on the segment between the endpoints: one parameter in [0, 1] interpolates all three coordinates, so each lies between its endpoints |
| Geometry.Ratio | Assets/Scripts/EnemyAI.cs:93 | The float ratio is NaN exactly for 0/0, and is `elapsed/total` whenever `0 <= elapsed <= total` and `total > 0` |
| Geometry.LerpAt | Assets/Scripts/EnemyAI.cs:93-95 | Defined exactly when the start and the ratio are; at elapsed 0 it is the start, at `elapsed == total > 0` it is the end |
| Numerals.NatToString | Assets/Scripts/MoneyManager.cs:140 | `ToString` of a non-negative int: at least one digit, digits only, no leading zero |
| Numerals.IntToString | Assets/Scripts/MoneyManager.cs:158 | `ToString` of an int begins with '-' exactly when it is negative, and is all digits otherwise |
| Numerals.ParseInt | Assets/Scripts/TutorialScripts/TutorialMoneyManager.cs:70 | Parsing succeeds exactly on an optional '-' followed by one or more digits |
| Numerals.ParseInt32 | Assets/Scripts/GoalTrigger.cs:178 | `int.Parse` / `TryParse` succeed exactly when the text parses and its value fits in 32 bits |
| Numerals.NatRoundTrip | Assets/Scripts/MoneyManager.cs:140 | The digits `ToString` writes denote the number written |
| Numerals.IntRoundTrip | Assets/Scripts/TutorialScripts/TutorialMoneyManager.cs:70-78 | Parsing `n.ToString()` gives `n` back, negative or not |
| Numerals.Int32RoundTrip | Assets/Scripts/TutorialScripts/TutorialMoneyManager.cs:70-78 | The same round trip through `int.Parse` for every 32-bit value |
| MoneyManager.ChooseItem | Assets/Scripts/MoneyManager.cs:90-110 | The id is always remembered. A price above the remaining money (`GetRemainingMoney`, starting money minus money spent) is refused first and changes nothing else. Then an out-of-stock limited item is refused and changes nothing. Otherwise the price is spent, the item (limited or not) loses one unit, its name goes to the builder, and the remaining money stays `>= 0` |
| MoneyManager.CopyItem | Assets/Scripts/MoneyManager.cs:112-115 | Copying is choosing the remembered item, which stays remembered |
| MoneyManager.FirstNamed | Assets/Scripts/MoneyManager.cs:119-126 | Finds the first index whose item has the name, or reports that none has |
| MoneyManager.UpdateLastItem | Assets/Scripts/MoneyManager.cs:117-127 | Remembers the first item of that name; with no such item nothing changes |
| MoneyManager.RefundItem | Assets/Scripts/MoneyManager.cs:167-181 | Only the first item of that name gets a unit back and its price returned. With no match nothing changes |
| MoneyManager.ResetMoney | Assets/Scripts/MoneyManager.cs:188-192 | The remaining money equals the starting money; stock and remembered id untouched |
| MoneyManager.ChooseThenRefund | Assets/Scripts/MoneyManager.cs:167-181 | With unique names, refunding a bought item restores the money spent and every stock count |
| MoneyManager.ChooseKeepsBudget | Assets/Scripts/MoneyManager.cs:94-104 | A purchase never takes a non-negative remaining budget below zero |
| MoneyManager.PadThree | Assets/Scripts/MoneyManager.cs:138-153 | The part below a thousand is always three digits, zero-padded, with its own value |
| MoneyManager.MoneyText | Assets/Scripts/MoneyManager.cs:131-160 | The label is "NO CASH" exactly when nothing is left. A positive amount's label carries a comma exactly when the amount is 1000 or more, and then the comma is fourth from the end, followed by the amount's last three digits zero-padded. Any positive amount reads back from its label as itself |
| MoneyManager.MoneyTextOneComma | Assets/Scripts/MoneyManager.cs:136-160 | The label carries at most one comma, and any comma is the one before the last three digits; for 1000 or more the thousands are written out between the dollar sign and the comma. From 1 to 999 the label is the dollar sign followed by the amount's own digits, with no padding |
| TutorialMoneyManager.QuantityText | Assets/Scripts/TutorialScripts/TutorialMoneyManager.cs:51 | The quantity label is "x" followed by the count |
| TutorialMoneyManager.QuantityIgnoresPrefix | Assets/Scripts/TutorialScripts/TutorialMoneyManager.cs:70 | A quantity label is parsed from index 1: its first character is dropped whatever it is, and an empty label does not parse |
| TutorialMoneyManager.QuantityRoundTrip | Assets/Scripts/TutorialScripts/TutorialMoneyManager.cs:70-78 | Parsing `("x"+n)` from index 1 gives `n` for every 32-bit `n` |
| TutorialMoneyManager.ChooseItem | Assets/Scripts/TutorialScripts/TutorialMoneyManager.cs:67-82 | An unparsable label aborts the purchase. A price above the remaining money (`GetRemainingMoney`, starting money minus money spent) or a quantity below 1 changes nothing. Otherwise the price is spent, the label becomes `"x"+(q-1)`, and the remaining money stays `>= 0` |
| TutorialMoneyManager.RefundLoopKeeps | Assets/Scripts/TutorialScripts/TutorialMoneyManager.cs:92-101 | Names and prices are untouched, and buttons of other names are unchanged, whether or not a label fails to parse |
| TutorialMoneyManager.RefundLoopWellFormed | Assets/Scripts/TutorialScripts/TutorialMoneyManager.cs:92-101 | With parsable labels the loop runs to the end and the sum of the matching buttons' prices comes off the money spent |
| TutorialMoneyManager.RefundLoopCountsUp | Assets/Scripts/TutorialScripts/TutorialMoneyManager.cs:92-98 | With parsable labels, each button of that name gets its quantity label rewritten as `"x"+(q+1)` |
| TutorialMoneyManager.RefundItem | Assets/Scripts/TutorialScripts/TutorialMoneyManager.cs:90-104 | Every matching button is refunded, not only the first, and the remaining money rises by their total price |
| TutorialMoneyManager.RefundUnique | Assets/Scripts/TutorialScripts/TutorialMoneyManager.cs:90-104 | With parsable labels, refunding a name only one button has counts that button up by one, gives its price back, and changes no other button |
| TutorialMoneyManager.ResetMoney | Assets/Scripts/TutorialScripts/TutorialMoneyManager.cs:111-115 | Nothing is spent any more; the labels are kept |
| TutorialMoneyManager.ChooseThenRefund | Assets/Scripts/TutorialScripts/TutorialMoneyManager.cs:67-104 | With canonical labels and a unique name, buying and then refunding restores the whole tutorial budget |
| GoalTrigger.Percent | Assets/Scripts/GoalTrigger.cs:73 | The delivered percentage is `delivered/num*100`, and NaN for 0 of 0 packages |
| GoalTrigger.DeterminePerformance | Assets/Scripts/GoalTrigger.cs:116-139 | The rating is 0 exactly when the percent is below 50 or the budget is negative. It is 3 exactly at 100 percent with `remaining >= max(0, optimal)`. It is always within -1..3 and never -1 up to 100 percent. For finite percentages, -1 exactly when the percent exceeds 100 and the budget is not negative. From 50 up to just under 100 percent with a non-negative budget it is 1 below `optimal` and 2 at or above it; at exactly 100 percent a budget in `0..optimal-1` rates 2. A NaN or +Infinity percent (a level with no packages) with a non-negative budget fails every comparison and rates -1 |
| GoalTrigger.PerformanceMonotoneInBudget | Assets/Scripts/GoalTrigger.cs:122-137 | Up to 100 percent, more remaining budget never lowers the rating |
| GoalTrigger.PerformanceMonotoneInPercent | Assets/Scripts/GoalTrigger.cs:122-137 | Up to 100 percent, a higher percentage never lowers the rating |
| GoalTrigger.OverDeliveryBreaksBudgetOrder | Assets/Scripts/GoalTrigger.cs:122-136 | Above 100 percent a deficit rates 0 but a surplus rates -1 |
| GoalTrigger.Deliver | Assets/Scripts/GoalTrigger.cs:156 | A delivery adds the unit's package count to the delivered count and changes nothing else |
| GoalTrigger.Update | Assets/Scripts/GoalTrigger.cs:49-62 | The level finishes exactly when it is not latched, is done, and may end. Finishing closes the latch |
| GoalTrigger.ResetPlayerResults | Assets/Scripts/GoalTrigger.cs:162-167 | Delivered and lost go to 0 and the latch opens |
| GoalTrigger.FinishesAtMostOnce | Assets/Scripts/GoalTrigger.cs:49-62 | Over any events without a reset, the level finishes at most once, and not at all once latched |
| GoalTrigger.OverCountNeverFinishes | Assets/Scripts/GoalTrigger.cs:169-172 | The done test is an exact count. Once delivered plus lost exceeds the level's packages, no frame, delivery or loss finishes the level until a reset |
| GoalTrigger.ResetReopens | Assets/Scripts/GoalTrigger.cs:162-167 | A reset reopens the latch. Whatever happened before, delivering all the level's packages and running a frame finishes the level once more and closes the latch again. A frame right after the reset finishes it only when the level has no packages |
| GoalTrigger.GetCurrentLevel | Assets/Scripts/GoalTrigger.cs:174-183 | The level is the scene name from index 5, parsed, or -1 when that does not parse |
| GoalTrigger.LevelNameRoundTrip | Assets/Scripts/GoalTrigger.cs:174-183 | A five-character prefix followed by `n` gives level `n` |
| GoalTrigger.FinishLevel | Assets/Scripts/GoalTrigger.cs:72-98 | The rating is DeterminePerformance of the round. Progress changes only at `>= 50` percent with a non-negative budget. Then the highest unlocked level becomes `max(old, level+1)`, this level's score becomes `max(old, rating)`, and other levels' scores are kept |
| GoalTrigger.ScoresNeverDrop | Assets/Scripts/GoalTrigger.cs:93-97 | A level's saved best rating (0 when none is saved) never goes down, whatever the round and whichever level is asked about |
| StringUtility.Render | Assets/Scripts/Utility/StringUtility.cs:45-78 | The typed text is never longer than the markup |
| StringUtility.TypeText | Assets/Scripts/Utility/StringUtility.cs:43-80 | The character loop leaves the display text followed by the rendered markup |
| StringUtility.RenderPlain | Assets/Scripts/Utility/StringUtility.cs:73-76 | Markup without backslashes is typed verbatim |
| StringUtility.EscapeRoundTrip | Assets/Scripts/Utility/StringUtility.cs:45-78 | A backslash-free text with its line breaks written as `\n` types back as the text |
| StringUtility.TrailingBackslash | Assets/Scripts/Utility/StringUtility.cs:51-55 | A final backslash after any markup stops typing and adds nothing: the typed text is that of the markup before it, which for plain text is the text itself |
| StringUtility.EscapeTypesNothing | Assets/Scripts/Utility/StringUtility.cs:57-72 | `\p`, `\s` and any other escape except `\n` consume two characters and type nothing |
| StringUtility.NewlineEscape | Assets/Scripts/Utility/StringUtility.cs:67-70 | `\n` consumes two characters and types one line break |
| Holding.LabelReadsBack | Assets/Scripts/Holding.cs:29 | The `count/threshold` label has its slash right after the count's digits and reads back as both numbers |
| Holding.IncrementThreshold | Assets/Scripts/Holding.cs:20-30 | The threshold rises by exactly 1 and the label shows count/threshold |
| Holding.DecrementThreshold | Assets/Scripts/Holding.cs:32-46 | At 1 nothing changes. Otherwise it drops by 1 and the label is refreshed, so from 1 or more it never falls below 1 |
| Holding.IncrementThenDecrement | Assets/Scripts/Holding.cs:20-46 | Raising then lowering the threshold restores the pen, with a refreshed label |
| Holding.Release | Assets/Scripts/Holding.cs:69-72 | Every held player gets full speed; everyone else keeps theirs |
| Holding.RemoveFirst | Assets/Scripts/Holding.cs:87 | Removes one occurrence of the player if present, and otherwise changes nothing |
| Holding.Enter | Assets/Scripts/Holding.cs:48-77 | Once stopped, nothing changes. Otherwise a player is slowed, appended and labelled, with the threshold, flags and other units kept. When the count then equals the threshold, the pen stops, releases everyone held at speed 2, empties and deactivates. The threshold is kept, and units it did not hold keep their speed |
| Holding.Exit | Assets/Scripts/Holding.cs:79-97 | Once stopped, nothing changes. Otherwise a leaving player is set to speed 2, removed, and the label refreshed. Threshold, `stopped` and `active` are kept |
| Holding.EnterExitKeepValid | Assets/Scripts/Holding.cs:48-97 | A running pen keeps its label current with fewer held than the threshold, and a stopped pen stays empty and inactive |
| Holding.StoppedIsFinal | Assets/Scripts/Holding.cs:50-81 | After the pen stops, no sequence of entries and exits changes it |
| TutorialStateManager.StatesPartition | Assets/Scripts/TutorialStateManager.cs:10-14 | Every state but `zero` is either a text state or a wait state |
| TutorialStateManager.WaitForInjective | Assets/Scripts/TutorialStateManager.cs:58-603 | Each text state hands over to its own wait state |
| TutorialStateManager.Update | Assets/Scripts/TutorialStateManager.cs:51-605 | A text state starts typing exactly when textFlag is up, and that frame only drops the flag. On a later frame, once typing is over, it raises the flag and moves to its own wait state. Every other state takes the wait step and starts no line |
| TutorialStateManager.WaitStep | Assets/Scripts/TutorialStateManager.cs:53-605 | Every wait state's exit is stated, with where it goes and when it stays. `zero` moves on exactly when the narration panel is usable. two and ten wait for the plan phase, three and five for a building in hand, four for Tile1 and eight for Tile2 to be occupied. fifteen, sixteen and seventeen wait for the camera to be rotated, zoomed and panned. eleven waits for both tiles to be empty with nothing in hand. The six/seven and twelve/thirteen loops are stated. one, nine and fourteen wait for the level to be done, and only one raises textFlag. tenpointfive_wait and nineteen_wait never move. eighteen clears its flag when the controls are shown, and moves on only when they are hidden with the flag down |
| TutorialStateManager.TenpointfiveWaitContinue | Assets/Scripts/TutorialStateManager.cs:607-609 | From any state it jumps to eleven_text, keeping both flags |
| TutorialStateManager.Start | Assets/Scripts/TutorialStateManager.cs:42-43 | The sequencer starts at `zero` with both flags up |
| TutorialStateManager.UpdateKeepsValid | Assets/Scripts/TutorialStateManager.cs:51-609 | textFlag is down only in a text state, and both entry points keep it so |
| TutorialStateManager.WaitingMeansFlagUp | Assets/Scripts/TutorialStateManager.cs:58-80 | In a wait state the flag is always up |
| TutorialStateManager.TypingStartsOnce | Assets/Scripts/TutorialStateManager.cs:58-80 | The frame that starts a line stays in its state with the flag down, and the next frame does not start it again |
| TutorialStateManager.RunKeepsValid | Assets/Scripts/TutorialStateManager.cs:51-605 | Along any run of frames no wait state is reached with the flag down |
| TutorialStateManager.EighteenNeedsShowThenHide | Assets/Scripts/TutorialStateManager.cs:576-587 | Leaving eightteen_wait with the flag up takes a frame with the controls shown, then a later frame with them hidden |

## Left out

- Rendering, audio, camera shake, prefab instantiation, UI widgets, singleton lookups and the money bar's `Vector2.Lerp` are side effects. They have no counterpart in the model.
- Float arithmetic is exact real arithmetic. Interpolated positions, the delivered percentage and the `(int)` casts carry no rounding.
- Frame counts come from distances through exact truncation. A distance whose float product would round across an integer is not modelled.
- The random noise on the forward raycast origin in EnemyAI is overwritten with constants before use, so it is dead code and not modelled. The raycasts themselves, the tags, the animator's clip tags and its PreWaitingState parameter are inputs.
- EnemyAI.Init: assumes the downward raycast in `Start` hits a tile. On a miss, `Start` throws on the null collider (EnemyAI.cs:50-51), both tile slots stay at the origin, and a later collision slide would aim there.
- Rotation and local-transform resets in EnemyAI's waiting state are not modelled; only the parent position is.
- `LosePlayer` on the player and `BuildBuilding` on the build managers are foreign calls. They appear only as outputs: the `bool` of `EnemyAI.Contact` and the `Bought(name)` outcomes.
- PlayerPrefs is a record of the highest unlocked level and a per-level score map with default 0. The key strings are not modelled.
- GoalTrigger.GetCurrentLevel: a scene name shorter than five characters makes `Substring(5)` throw, so it is a precondition. `int.TryParse`'s tolerance of surrounding white space and a leading '+' is not modelled; such names read as -1 here.
- Numerals.ParseInt32: accepts an optional '-' and digits only; white space and '+' that `int.Parse` would accept are rejected.
- MoneyManager.ChooseItem: an id outside the item array throws in the source and is a precondition here. The item is assumed to be a reference type, so the decrement sticks; Item.cs is not part of this model.
- Integer overflow of money sums, counts and thresholds is not modelled (32-bit wrap-around). Only `int.Parse`'s range check is.
- TutorialMoneyManager: the five non-null buttons are the sequence, and the null slots of the ten-element array are dropped. Its money label (the plain remaining amount) and the energy bar are UI.
- Holding: the pen's scale and position arithmetic is left out. `DecrementThreshold` may bring the threshold down to the held count while players are held. `Holding.EnterExitKeepValid` therefore covers entries and exits only.
- StringUtility.Render: C# walks the markup by UTF-16 code unit, while a Dafny string is a sequence of Unicode scalar values. A backslash followed by a character outside the Basic Multilingual Plane consumes only its high surrogate in C#, which then types a lone low surrogate; the model consumes the whole character and types nothing.
- StringUtility: the per-character delays and the speed multiplier are left out. `IsTyping` is an input of the tutorial sequencer on every frame after a line starts. On the starting frame it is known to be set, as described above.
- TutorialStateManager: narration strings, button interactability, highlight animations and the permissions set on the build, tile and camera managers are left out. The seventeen_wait test reads the camera rig's x coordinate twice (`x != 0 || x != 0`); it is the single input `cameraPanned`.
- PlayerMovement.cs and Tile.cs (unit physics, material colours) are not part of this model.

=== FILE: base.dfy ===
/** Small shared datatypes. */
module Base {

  /** A value that may be absent: a failed parse, a raycast miss, a NaN. */
  datatype Option<+T> = None | Some(value: T)
}

=== FILE: enemy_ai.dfy ===
/**
 * The patrolling enemy of EnemyAI.cs as a tick-driven state machine.
 *
 * Each `FixedUpdate` is one call of `Tick`. Everything the engine supplies
 * (the forward and downward raycasts, the tag of the animator clip now
 * playing, the animator's `PreWaitingState`, the scene offset) arrives in a
 * `Sensors` value. The animator
 * parameters the script sets are kept in the enemy's own record, and
 * positions are exact real vectors, with `None` standing for the NaN that
 * `0f/0` produces.
 */
module EnemyAI {
  import opened Base
  import opened Geometry

  datatype State =
    | Waiting
    | ChargingAnimationStart
    | Charging
    | ChargingAnimationEnd
    | Returning
    | CollisionAnimation
    | Stunned
    | ResetWait

  /** The tags the controller reacts to. */
  datatype Tag = PlayerTag | EnemyTag | OtherTag

  /** The tag of the clip the animator is playing. */
  datatype ClipTag = ChargeUpFinished | CoolDownFinished | OtherClip

  /** What the forward raycast hit: the hit object's tag and position, and how far away it is. */
  datatype Hit = Hit(tag: Tag, position: Vec, distance: real)

  /**
   * The animator parameters the controller writes. `preWaiting` is
   * `PreWaitingState` as the controller last left it: the animator raises it
   * on its own, and the controller reads it through `Sensors.preWaiting`.
   */
  datatype AnimatorParams = AnimatorParams(
    chargeUp: bool,
    coolDown: bool,
    enemyCollision: bool,
    preWaiting: bool,
    levelReset: bool)

  datatype Enemy = Enemy(
    state: State,
    home: Vec,                 // starting_parent_pos
    position: Option<Vec>,     // transform.parent.position; None is NaN
    target: Vec,               // target_pos
    hitDistance: real,         // hit.distance of the latest forward raycast
    lerpFrameTotal: int,
    elapsedFrames: int,
    lastTile: Vec,
    currTile: Vec,
    anim: AnimatorParams)

  /** One tick's worth of engine input. */
  datatype Sensors = Sensors(
    sceneOffset: Vec,          // position of the scene root the enemy is placed in
    forward: Option<Hit>,      // forward raycast, only consulted while waiting
    clip: ClipTag,
    preWaiting: bool,          // the animator's PreWaitingState, only consulted in reset_wait
    ground: Option<Vec>)       // position of the tile under the enemy, if the downward raycast hit one

  /** C#'s `(int)` cast of a float: truncation toward zero. */
  function Truncate(r: real): (n: int)
    ensures r >= 0.0 ==> 0 <= n && n as real <= r < n as real + 1.0
    ensures r < 0.0 ==> n <= 0 && n as real - 1.0 < r <= n as real
  {
    if r >= 0.0 then r.Floor else -((-r).Floor)
  }

  /**
   * Frames for the charge toward a target at `distance`: `(int)(12*distance)`,
   * twelve frames a unit, any fraction of a frame dropped.
   */
  function ChargeFrames(distance: real): (n: int)
    ensures distance >= 0.0 ==> 0 <= n && n as real <= 12.0 * distance < n as real + 1.0
  {
    Truncate(12.0 * distance)
  }

  /** Frames for the way back: `(int)(25*distance)`, twenty-five frames a unit, rounded down. */
  function ReturnFrames(distance: real): (n: int)
    ensures distance >= 0.0 ==> 0 <= n && n as real <= 25.0 * distance < n as real + 1.0
  {
    Truncate(25.0 * distance)
  }

  /** The return takes at least as long as the charge, and both are non-negative. */
  lemma {:induction false} ReturnFramesAtLeastCharge(distance: real)
    requires distance >= 0.0
    ensures 0 <= ChargeFrames(distance) <= ReturnFrames(distance)
  {
  }

  /**
   * At a whole-number distance no fraction is dropped: a target `n` units away
   * takes `12n` frames to charge at and `25n` to return from (120 and 250 at
   * ten units).
   */
  lemma {:induction false} FramesAtWholeDistance(n: int)
    ensures n >= 0 ==> ChargeFrames(n as real) == 12 * n && ReturnFrames(n as real) == 25 * n
  {
    if n >= 0 {
      assert 12.0 * n as real == (12 * n) as real;
      assert 25.0 * n as real == (25 * n) as real;
    }
  }

  /** The enemy as `Start` leaves it, standing at `home` on the tile at `tile`. */
  function Init(home: Vec, tile: Vec, anim: AnimatorParams): (e: Enemy)
    ensures Valid(e) && e.state == Waiting
    ensures e.lastTile == tile && e.currTile == tile
  {
    Enemy(Waiting, home, Some(home), home, 0.0, 0, 0, tile, tile, anim)
  }

  /**
   * The frame counters stay within the interpolation window, and the states
   * that do not interpolate hold them at zero.
   */
  predicate Valid(e: Enemy) {
    && 0 <= e.elapsedFrames <= e.lerpFrameTotal
    && e.hitDistance >= 0.0
    && (e.state !in {Charging, Returning, CollisionAnimation} ==> e.elapsedFrames == 0)
  }

  /** Raycast distances are never negative. */
  predicate SensorsOk(s: Sensors) {
    s.forward.Some? ==> s.forward.value.distance >= 0.0
  }

  /** The `switch (currState)` block of FixedUpdate. */
  function Step(e: Enemy, s: Sensors): (r: Enemy)
    // only the forward raycast, the clip tag and the pre-waiting flag pick the transition
    ensures e.state == Waiting ==>
      if s.forward.Some? && s.forward.value.tag == PlayerTag then
        && r.state == ChargingAnimationStart
        && r.target == s.forward.value.position
        && r.lerpFrameTotal == ChargeFrames(s.forward.value.distance)
        && r.anim == e.anim.(chargeUp := true)
      else r.state == Waiting && r.lerpFrameTotal == e.lerpFrameTotal && r.anim == e.anim && r.target == e.target
    ensures e.state == Waiting ==>
      && r.position == Some(Add(e.home, s.sceneOffset))
      && r.hitDistance == (if s.forward.Some? then s.forward.value.distance else 0.0)
      && r.elapsedFrames == e.elapsedFrames
    // the clip-driven states change nothing but the state and the one flag they clear
    ensures e.state == ChargingAnimationStart ==>
      r == (if s.clip == ChargeUpFinished then e.(state := Charging, anim := e.anim.(chargeUp := false)) else e)
    ensures e.state == ChargingAnimationEnd ==>
      r == (if s.clip == CoolDownFinished then e.(state := Returning, anim := e.anim.(coolDown := false)) else e)
    ensures e.state == Stunned ==> r == e
    ensures e.state == ResetWait ==>
      r == (if s.preWaiting then e.(state := Waiting, anim := e.anim.(preWaiting := false)) else e)
    // only a sighting retargets, and only waiting rereads the forward hit
    ensures e.state != Waiting ==> r.target == e.target && r.hitDistance == e.hitDistance
    // the interpolating states count one frame per tick and stop on the last one
    ensures e.state in {Charging, Returning, CollisionAnimation} ==>
      && r.elapsedFrames == (if e.elapsedFrames != e.lerpFrameTotal then e.elapsedFrames + 1 else 0)
      && (e.elapsedFrames != e.lerpFrameTotal <==> r.state == e.state)
    ensures e.state in {Charging, Returning, CollisionAnimation} && e.elapsedFrames != e.lerpFrameTotal ==>
      r == e.(position := r.position, elapsedFrames := e.elapsedFrames + 1)
    ensures e.state == Charging && e.elapsedFrames == e.lerpFrameTotal ==>
      && r.state == ChargingAnimationEnd
      && r.lerpFrameTotal == ReturnFrames(e.hitDistance)
      && r.anim == e.anim.(coolDown := true)
    ensures e.state == Returning && e.elapsedFrames == e.lerpFrameTotal ==>
      r == e.(position := r.position, elapsedFrames := 0, state := Waiting)
    ensures e.state == CollisionAnimation && e.elapsedFrames == e.lerpFrameTotal ==>
      r == e.(position := r.position, elapsedFrames := 0, state := Stunned)
    // where the body is drawn on this tick
    ensures e.state == Charging ==> r.position == LerpAt(Some(e.home), e.target, e.elapsedFrames, e.lerpFrameTotal)
    ensures e.state == Returning ==> r.position == LerpAt(Some(e.target), e.home, e.elapsedFrames, e.lerpFrameTotal)
    ensures e.state == CollisionAnimation ==> r.position == LerpAt(e.position, e.lastTile, e.elapsedFrames, e.lerpFrameTotal)
    // the switch never touches the tiles or the home position
    ensures r.lastTile == e.lastTile && r.currTile == e.currTile && r.home == e.home
  {
    match e.state
    case Waiting =>
      var rested := e.(position := Some(Add(e.home, s.sceneOffset)),
                       hitDistance := if s.forward.Some? then s.forward.value.distance else 0.0);
      if s.forward.Some? && s.forward.value.tag == PlayerTag then
        rested.(state := ChargingAnimationStart,
                target := s.forward.value.position,
                lerpFrameTotal := ChargeFrames(s.forward.value.distance),
                anim := e.anim.(chargeUp := true))
      else rested
    case ChargingAnimationStart =>
      if s.clip == ChargeUpFinished then e.(anim := e.anim.(chargeUp := false), state := Charging)
      else e
    case Charging =>
      var moved := e.(position := LerpAt(Some(e.home), e.target, e.elapsedFrames, e.lerpFrameTotal));
      if e.elapsedFrames != e.lerpFrameTotal then moved.(elapsedFrames := e.elapsedFrames + 1)
      else moved.(elapsedFrames := 0, state := ChargingAnimationEnd,
                  lerpFrameTotal := ReturnFrames(e.hitDistance),
                  anim := e.anim.(coolDown := true))
    case ChargingAnimationEnd =>
      if s.clip == CoolDownFinished then e.(anim := e.anim.(coolDown := false), state := Returning)
      else e
    case Returning =>
      var moved := e.(position := LerpAt(Some(e.target), e.home, e.elapsedFrames, e.lerpFrameTotal));
      if e.elapsedFrames != e.lerpFrameTotal then moved.(elapsedFrames := e.elapsedFrames + 1)
      else moved.(elapsedFrames := 0, state := Waiting)
    case CollisionAnimation =>
      var moved := e.(position := LerpAt(e.position, e.lastTile, e.elapsedFrames, e.lerpFrameTotal));
      if e.elapsedFrames != e.lerpFrameTotal then moved.(elapsedFrames := e.elapsedFrames + 1)
      else moved.(elapsedFrames := 0, state := Stunned)
    case Stunned => e
    case ResetWait =>
      if s.preWaiting then e.(state := Waiting, anim := e.anim.(preWaiting := false))
      else e
  }

  /** The tile-tracking block at the end of FixedUpdate, run on the state the switch left. */
  function TrackTiles(e: Enemy, ground: Option<Vec>): (r: Enemy)
    ensures r == e.(lastTile := r.lastTile, currTile := r.currTile)
    ensures ground.None? || e.state == CollisionAnimation ==> r == e
    ensures ground.Some? && e.state == Waiting ==> r.currTile == ground.value && r.lastTile == ground.value
    ensures ground.Some? && e.state !in {Waiting, CollisionAnimation} ==>
      if ground.value != e.currTile then r.lastTile == e.currTile && r.currTile == ground.value
      else r == e
  {
    match ground
    case None => e
    case Some(tile) =>
      if e.state == CollisionAnimation then e
      else
        var shifted := if tile != e.currTile then e.(lastTile := e.currTile, currTile := tile) else e;
        if e.state == Waiting then shifted.(currTile := tile, lastTile := tile) else shifted
  }

  /** One `FixedUpdate`. */
  function Tick(e: Enemy, s: Sensors): (r: Enemy)
    ensures Valid(e) && SensorsOk(s) ==> Valid(r)
    ensures r == Step(e, s).(lastTile := r.lastTile, currTile := r.currTile)
    ensures r.state == Step(e, s).state && r.elapsedFrames == Step(e, s).elapsedFrames
    ensures r.position == Step(e, s).position && r.home == e.home
    ensures r.state == Waiting && s.ground.Some? ==> r.currTile == s.ground.value && r.lastTile == s.ground.value
    ensures r.state == CollisionAnimation ==> r.lastTile == e.lastTile && r.currTile == e.currTile
  {
    TrackTiles(Step(e, s), s.ground)
  }

  /** `OnTriggerEnter`: what touching an object with tag `other` does, and whether the player is lost. */
  function Contact(e: Enemy, other: Tag): (r: (Enemy, bool))
    ensures r.1 <==> other == PlayerTag
    ensures other == EnemyTag ==>
      r.0 == e.(state := CollisionAnimation, anim := e.anim.(enemyCollision := true))
    ensures other != EnemyTag ==> r.0 == e
    ensures Valid(e) ==> Valid(r.0)
  {
    var losePlayer := other == PlayerTag;
    if other == EnemyTag then
      (e.(state := CollisionAnimation, anim := e.anim.(enemyCollision := true)), losePlayer)
    else (e, losePlayer)
  }

  /** `resetState`: back to waiting, counter cleared, all three requests withdrawn. */
  function ResetState(e: Enemy): (r: Enemy)
    ensures r.state == Waiting && r.elapsedFrames == 0
    ensures !r.anim.chargeUp && !r.anim.coolDown && !r.anim.enemyCollision && r.anim.levelReset
    ensures r.lerpFrameTotal == e.lerpFrameTotal && r.position == e.position
    ensures r.lastTile == e.lastTile && r.currTile == e.currTile
    ensures Valid(e) ==> Valid(r)
  {
    e.(anim := e.anim.(levelReset := true, chargeUp := false, coolDown := false, enemyCollision := false),
       elapsedFrames := 0,
       state := Waiting)
  }

  /** Resetting twice is the same as resetting once. */
  lemma {:induction false} ResetIdempotent(e: Enemy)
    ensures ResetState(ResetState(e)) == ResetState(e)
  {
  }

  /** Ticks in order. */
  function Run(e: Enemy, ss: seq<Sensors>): Enemy
    decreases |ss|
  {
    if |ss| == 0 then e else Run(Tick(e, ss[0]), ss[1..])
  }

  lemma {:induction false} RunAppend(e: Enemy, a: seq<Sensors>, b: seq<Sensors>)
    ensures Run(e, a + b) == Run(Run(e, a), b)
    decreases |a|
  {
    if |a| > 0 {
      assert (a + b)[0] == a[0];
      assert (a + b)[1..] == a[1..] + b;
      RunAppend(Tick(e, a[0]), a[1..], b);
    } else {
      assert a + b == b;
    }
  }

  /** Where a finished charge leaves an enemy that started it as `e`. */
  predicate ChargeDone(e: Enemy, r: Enemy) {
    && r.state == ChargingAnimationEnd
    && r.elapsedFrames == 0
    && r.lerpFrameTotal == ReturnFrames(e.hitDistance)
    && r.anim == e.anim.(coolDown := true)
    && (e.lerpFrameTotal > 0 ==> r.position == Some(e.target))
    && r.home == e.home && r.target == e.target
  }

  /**
   * A charge runs for `lerpFrameTotal - elapsedFrames + 1` ticks, whatever the
   * sensors say, and ends in `ChargingAnimationEnd` with the body on the target
   * and the return's frame count in place.
   */
  lemma {:induction false} ChargeCompletes(e: Enemy, ss: seq<Sensors>)
    requires e.state == Charging && 0 <= e.elapsedFrames <= e.lerpFrameTotal
    requires |ss| == e.lerpFrameTotal - e.elapsedFrames + 1
    ensures ChargeDone(e, Run(e, ss))
    decreases |ss|
  {
    var next := Tick(e, ss[0]);
    if e.elapsedFrames == e.lerpFrameTotal {
      assert ss[1..] == [];
    } else {
      ChargeCompletes(next, ss[1..]);
    }
  }

  /** Where a finished return leaves an enemy that started it as `e`. */
  predicate ReturnDone(e: Enemy, r: Enemy) {
    && r.state == Waiting
    && r.elapsedFrames == 0
    && (e.lerpFrameTotal > 0 ==> r.position == Some(e.home))
    && r.anim == e.anim && r.target == e.target
  }

  /**
   * The way back runs for `lerpFrameTotal - elapsedFrames + 1` ticks and ends
   * waiting, counter at zero, with the body at home.
   */
  lemma {:induction false} ReturnCompletes(e: Enemy, ss: seq<Sensors>)
    requires e.state == Returning && 0 <= e.elapsedFrames <= e.lerpFrameTotal
    requires |ss| == e.lerpFrameTotal - e.elapsedFrames + 1
    ensures ReturnDone(e, Run(e, ss))
    decreases |ss|
  {
    var next := Tick(e, ss[0]);
    if e.elapsedFrames == e.lerpFrameTotal {
      assert ss[1..] == [];
    } else {
      ReturnCompletes(next, ss[1..]);
    }
  }

  /**
   * The collision animation slides the body onto the last tile it left and
   * stuns the enemy. The tiles are not tracked meanwhile, so the landing spot
   * is the `lastTile` the animation started with.
   */
  lemma {:induction false} CollisionEndsOnLastTile(e: Enemy, ss: seq<Sensors>)
    requires e.state == CollisionAnimation && 0 <= e.elapsedFrames <= e.lerpFrameTotal
    requires e.lerpFrameTotal > 0 && e.position.Some?
    requires |ss| == e.lerpFrameTotal - e.elapsedFrames + 1
    ensures Run(e, ss).state == Stunned
    ensures Run(e, ss).elapsedFrames == 0
    ensures Run(e, ss).position == Some(e.lastTile)
    decreases |ss|
  {
    var next := Tick(e, ss[0]);
    if e.elapsedFrames == e.lerpFrameTotal {
      assert ss[1..] == [];
    } else {
      assert next.position.Some?;
      CollisionEndsOnLastTile(next, ss[1..]);
    }
  }

  /** A stunned enemy stays stunned, and stays put, until it is reset. */
  lemma {:induction false} StunnedStays(e: Enemy, ss: seq<Sensors>)
    requires e.state == Stunned
    ensures Run(e, ss).state == Stunned
    ensures Run(e, ss).position == e.position
    ensures Run(e, ss).elapsedFrames == e.elapsedFrames
    decreases |ss|
  {
    if |ss| > 0 {
      StunnedStays(Tick(e, ss[0]), ss[1..]);
    }
  }

  /**
   * Where a whole attack on a player sighted as `hit` leaves an enemy that
   * started it as `e`: the charge (`struck`) ends on the spot where the player
   * was seen, unless it had no frames to run; the enemy then ends waiting,
   * counter at zero, still aimed at that spot, and back home unless the
   * return had no frames to run.
   */
  predicate CycleDone(e: Enemy, hit: Hit, struck: Enemy, r: Enemy) {
    && struck.state == ChargingAnimationEnd
    && (ChargeFrames(hit.distance) > 0 ==> struck.position == Some(hit.position))
    && r.state == Waiting
    && r.elapsedFrames == 0
    && r.target == hit.position
    && (ReturnFrames(hit.distance) > 0 ==> r.position == Some(e.home))
  }

  /**
   * A whole attack: the player is sighted `d` units ahead, the wind-up clip
   * finishes, the charge reaches the player's position, the cool-down clip
   * finishes, and the return brings the enemy home, waiting again with its
   * counter at zero.
   */
  lemma {:induction false} FullCycle(e: Enemy, sight: Sensors, windUp: Sensors, charge: seq<Sensors>,
                  coolDown: Sensors, back: seq<Sensors>)
    requires Valid(e) && e.state == Waiting
    requires sight.forward.Some? && sight.forward.value.tag == PlayerTag
    requires sight.forward.value.distance > 0.0
    requires windUp.clip == ChargeUpFinished && coolDown.clip == CoolDownFinished
    requires |charge| == ChargeFrames(sight.forward.value.distance) + 1
    requires |back| == ReturnFrames(sight.forward.value.distance) + 1
    ensures CycleDone(e, sight.forward.value, Run(e, [sight, windUp] + charge),
                      Run(e, [sight, windUp] + charge + [coolDown] + back))
  {
    var e1 := Tick(e, sight);
    var e2 := Tick(e1, windUp);
    assert Run(e1, [windUp]) == e2 by { assert [windUp][1..] == []; }
    assert Run(e, [sight, windUp]) == e2 by { assert [sight, windUp][1..] == [windUp]; }
    ChargeCompletes(e2, charge);
    var e3 := Run(e2, charge);
    var e4 := Tick(e3, coolDown);
    assert Run(e3, [coolDown]) == e4 by { assert [coolDown][1..] == []; }
    ReturnCompletes(e4, back);
    RunAppend(e, [sight, windUp], charge);
    RunAppend(e, [sight, windUp] + charge, [coolDown]);
    RunAppend(e, [sight, windUp] + charge + [coolDown], back);
  }

  /**
   * Touching another enemy mid-charge abandons the charge for good: the enemy
   * is in the collision animation with its request raised, and the charge
   * counters carry over untouched.
   */
  lemma {:induction false} CollisionPreemptsCharge(e: Enemy)
    requires e.state == Charging
    ensures Contact(e, EnemyTag).0.state == CollisionAnimation
    ensures Contact(e, EnemyTag).0.anim.enemyCollision
    ensures Contact(e, EnemyTag).0.elapsedFrames == e.elapsedFrames
    ensures Contact(e, EnemyTag).0.lerpFrameTotal == e.lerpFrameTotal
  {
  }
}

=== FILE: geometry.dfy ===
/**
 * Points in space with exact real coordinates, and Unity's `Vector3.Lerp`,
 * which clamps its parameter to [0, 1]. Float rounding is not modelled.
 */
module Geometry {
  import opened Base

  datatype Vec = Vec(x: real, y: real, z: real)

  function Add(a: Vec, b: Vec): Vec {
    Vec(a.x + b.x, a.y + b.y, a.z + b.z)
  }

  function Clamp01(t: real): (c: real)
    ensures 0.0 <= c <= 1.0
    ensures 0.0 <= t <= 1.0 ==> c == t
  {
    if t < 0.0 then 0.0 else if t > 1.0 then 1.0 else t
  }

  function LerpReal(a: real, b: real, t: real): real
    requires 0.0 <= t <= 1.0
  {
    a + (b - a) * t
  }

  /** `Vector3.Lerp(a, b, t)`. */
  function Lerp(a: Vec, b: Vec, t: real): (p: Vec)
    ensures t <= 0.0 ==> p == a
    ensures t >= 1.0 ==> p == b
  {
    var c := Clamp01(t);
    Vec(LerpReal(a.x, b.x, c), LerpReal(a.y, b.y, c), LerpReal(a.z, b.z, c))
  }

  predicate Between(a: real, b: real, v: real) {
    (a <= v <= b) || (b <= v <= a)
  }

  /**
   * Every point Lerp produces lies on the segment from `a` to `b`: all three
   * coordinates are interpolated by one shared parameter in [0, 1], so each
   * lies between its endpoints.
   */
  lemma {:induction false} LerpOnSegment(a: Vec, b: Vec, t: real)
    ensures exists c :: (0.0 <= c <= 1.0 &&
      Lerp(a, b, t) == Vec(LerpReal(a.x, b.x, c), LerpReal(a.y, b.y, c), LerpReal(a.z, b.z, c)))
    ensures Between(a.x, b.x, Lerp(a, b, t).x)
    ensures Between(a.y, b.y, Lerp(a, b, t).y)
    ensures Between(a.z, b.z, Lerp(a, b, t).z)
  {
    var c := Clamp01(t);
    LerpRealBetween(a.x, b.x, c);
    LerpRealBetween(a.y, b.y, c);
    LerpRealBetween(a.z, b.z, c);
  }

  lemma {:induction false} LerpRealBetween(a: real, b: real, c: real)
    requires 0.0 <= c <= 1.0
    ensures Between(a, b, LerpReal(a, b, c))
  {
    var d := b - a;
    MulNonneg(if d >= 0.0 then d else -d, c);
    MulNonneg(if d >= 0.0 then d else -d, 1.0 - c);
    assert d * (1.0 - c) == d - d * c;
  }

  lemma {:induction false} MulNonneg(x: real, y: real)
    requires x >= 0.0 && y >= 0.0
    ensures x * y >= 0.0
  {
  }

  /**
   * The single-precision quotient `(float)elapsed / total`, with `None`
   * standing for NaN (0/0). A positive count over zero is +Infinity and a
   * negative one -Infinity; Lerp clamps those to 1 and 0, so they are given
   * as those values.
   */
  function Ratio(elapsed: int, total: int): (r: Option<real>)
    ensures r.None? <==> elapsed == 0 && total == 0
    ensures 0 <= elapsed <= total && total > 0 ==> r == Some(elapsed as real / total as real)
  {
    if total == 0 then
      if elapsed == 0 then None
      else if elapsed > 0 then Some(1.0)
      else Some(0.0)
    else Some(elapsed as real / total as real)
  }

  /** `Vector3.Lerp(from, to, (float)elapsed / total)`; NaN in, or a NaN ratio, gives NaN out. */
  function LerpAt(from: Option<Vec>, to: Vec, elapsed: int, total: int): (p: Option<Vec>)
    ensures p.Some? <==> from.Some? && Ratio(elapsed, total).Some?
    ensures from.Some? && elapsed == total && total > 0 ==> p == Some(to)
    ensures from.Some? && elapsed == 0 && total > 0 ==> p == from
  {
    match (from, Ratio(elapsed, total))
    case (Some(a), Some(t)) => Some(Lerp(a, to, t))
    case _ => None
  }
}

=== FILE: goal_trigger.dfy ===
/**
 * Level completion and scoring, GoalTrigger.cs: counting delivered packages,
 * deciding when the level is over, finishing it once per round, rating the
 * result and recording unlocks and high scores.
 */
module GoalTrigger {
  import opened Base
  import opened Numerals

  /**
   * A single-precision value that is not rounded but may be infinite or NaN,
   * as the delivered percentage is when the level has no packages.
   */
  datatype Float = Finite(v: real) | PosInf | NegInf | NaN

  /** `f < c`; NaN compares false. */
  predicate Below(f: Float, c: real) {
    match f
    case Finite(v) => v < c
    case NegInf => true
    case _ => false
  }

  /** `f == c`; NaN compares false. */
  predicate Equals(f: Float, c: real) {
    f.Finite? && f.v == c
  }

  /** `f >= c`; NaN compares false. */
  predicate AtLeast(f: Float, c: real) {
    match f
    case Finite(v) => v >= c
    case PosInf => true
    case _ => false
  }

  /** `(float) delivered / numPackages * 100f`. */
  function Percent(delivered: int, numPackages: int): (p: Float)
    ensures numPackages != 0 ==> p == Finite(delivered as real / numPackages as real * 100.0)
    ensures numPackages == 0 && delivered == 0 ==> p == NaN
  {
    if numPackages != 0 then Finite(delivered as real / numPackages as real * 100.0)
    else if delivered > 0 then PosInf
    else if delivered < 0 then NegInf
    else NaN
  }

  /**
   * `DeterminePerformance`: 0 is a failed level, 1 to 3 the star rating, and
   * -1 what is left when none of the cases applies.
   */
  function DeterminePerformance(percent: Float, remaining: int, optimal: int): (r: int)
    ensures -1 <= r <= 3
    ensures r == 0 <==> Below(percent, 50.0) || remaining < 0
    ensures r == 3 <==> Equals(percent, 100.0) && remaining >= 0 && remaining >= optimal
    ensures percent.Finite? && percent.v <= 100.0 ==> r != -1
    ensures percent.Finite? ==> (r == -1 <==> percent.v > 100.0 && remaining >= 0)
    // from half up to just short of every package, the budget alone picks one star or two
    ensures percent.Finite? && 50.0 <= percent.v < 100.0 && remaining >= 0 ==>
      r == (if remaining < optimal then 1 else 2)
    ensures Equals(percent, 100.0) && 0 <= remaining < optimal ==> r == 2
    // NaN and +Infinity fail every comparison, so they fall through to -1 unless the budget is overspent
    ensures !percent.Finite? && !Below(percent, 50.0) && remaining >= 0 ==> r == -1
  {
    if Below(percent, 50.0) || remaining < 0 then 0
    else if Below(percent, 100.0) && remaining < optimal then 1
    else if Below(percent, 100.0) && remaining >= optimal then 2
    else if Equals(percent, 100.0) && remaining < optimal then 2
    else if Equals(percent, 100.0) && remaining >= optimal then 3
    else -1
  }

  /** Over percentages up to 100, a larger remaining budget never lowers the rating. */
  lemma {:induction false} PerformanceMonotoneInBudget(p: real, r1: int, r2: int, optimal: int)
    requires p <= 100.0 && r1 <= r2
    ensures DeterminePerformance(Finite(p), r1, optimal) <= DeterminePerformance(Finite(p), r2, optimal)
  {
  }

  /** Over percentages up to 100, delivering more never lowers the rating. */
  lemma {:induction false} PerformanceMonotoneInPercent(p1: real, p2: real, remaining: int, optimal: int)
    requires p1 <= p2 <= 100.0
    ensures DeterminePerformance(Finite(p1), remaining, optimal) <= DeterminePerformance(Finite(p2), remaining, optimal)
  {
  }

  /** Above 100 percent monotonicity in the budget fails: a deficit rates 0, a surplus -1. */
  lemma {:induction false} OverDeliveryBreaksBudgetOrder()
    ensures DeterminePerformance(Finite(150.0), -1, 0) == 0
    ensures DeterminePerformance(Finite(150.0), 0, 0) == -1
  {
  }

  datatype Goal = Goal(
    numPackages: int,
    packagesDelivered: int,
    packagesLost: int,
    levelCanEnd: bool,
    levelDoneAlready: bool)

  /** `IsLevelDone`: every package is either delivered or lost. */
  predicate IsLevelDone(g: Goal) {
    g.packagesDelivered + g.packagesLost == g.numPackages
  }

  /** `OnTriggerEnter` with a player: the unit's packages count as delivered. */
  function Deliver(g: Goal, unitPackages: int): (r: Goal)
    ensures r.packagesDelivered - g.packagesDelivered == unitPackages
    ensures r == g.(packagesDelivered := r.packagesDelivered)
  {
    g.(packagesDelivered := g.packagesDelivered + unitPackages)
  }

  /**
   * `Update`: once the level is done and may end, finish it (`fires`) and
   * latch; while latched nothing happens.
   */
  function Update(g: Goal): (r: (Goal, bool))
    ensures r.1 <==> !g.levelDoneAlready && IsLevelDone(g) && g.levelCanEnd
    ensures r.0 == g.(levelDoneAlready := g.levelDoneAlready || r.1)
  {
    if g.levelDoneAlready then (g, false)
    else if IsLevelDone(g) && g.levelCanEnd then (g.(levelDoneAlready := true), true)
    else (g, false)
  }

  /** `ResetPlayerResults`: a new round with nothing delivered or lost and the latch open. */
  function ResetPlayerResults(g: Goal): (r: Goal)
    ensures r.packagesDelivered == 0 && r.packagesLost == 0 && !r.levelDoneAlready
    ensures r.numPackages == g.numPackages && r.levelCanEnd == g.levelCanEnd
    ensures IsLevelDone(r) <==> g.numPackages == 0
  {
    g.(packagesDelivered := 0, packagesLost := 0, levelDoneAlready := false)
  }

  /** What can happen to the goal between frames. */
  datatype Event =
    | Frame                  // Update
    | Delivered(units: int)  // a unit carrying `units` packages reaches the goal
    | Lost(units: int)       // packages lost elsewhere in the level
    | Reset                  // ResetPlayerResults

  function Apply(g: Goal, ev: Event): (r: (Goal, bool))
    ensures r.1 ==> ev.Frame?
  {
    match ev
    case Frame => Update(g)
    case Delivered(n) => (Deliver(g, n), false)
    case Lost(n) => (g.(packagesLost := g.packagesLost + n), false)
    case Reset => (ResetPlayerResults(g), false)
  }

  /** The goal after the events, and how many times the level was finished on the way. */
  function Run(g: Goal, evs: seq<Event>): (r: (Goal, nat))
    decreases |evs|
  {
    if |evs| == 0 then (g, 0)
    else
      var step := Apply(g, evs[0]);
      var rest := Run(step.0, evs[1..]);
      (rest.0, rest.1 + (if step.1 then 1 else 0))
  }

  /**
   * The finish action runs at most once per round: without a reset the level
   * finishes at most once, and not at all once the latch is closed.
   */
  lemma {:induction false} FinishesAtMostOnce(g: Goal, evs: seq<Event>)
    requires forall i :: 0 <= i < |evs| ==> !evs[i].Reset?
    ensures Run(g, evs).1 <= (if g.levelDoneAlready then 0 else 1)
    ensures Run(g, evs).1 > 0 ==> Run(g, evs).0.levelDoneAlready
    ensures g.levelDoneAlready ==> Run(g, evs).0.levelDoneAlready
    decreases |evs|
  {
    if |evs| > 0 {
      FinishesAtMostOnce(Apply(g, evs[0]).0, evs[1..]);
    }
  }

  /**
   * A reset reopens the latch: whatever happened before, delivering every
   * package and then running a frame finishes the level once more and closes
   * the latch again. Right after the reset, a frame finishes it only if the
   * level has no packages at all.
   */
  lemma {:induction false} ResetReopens(g: Goal)
    requires g.levelCanEnd
    ensures Run(g, [Reset, Delivered(g.numPackages), Frame]).1 == 1
    ensures Run(g, [Reset, Delivered(g.numPackages), Frame]).0.levelDoneAlready
    ensures Run(g, [Reset, Frame]).1 == (if g.numPackages == 0 then 1 else 0)
  {
    var g1 := ResetPlayerResults(g);
    var g2 := Deliver(g1, g.numPackages);
    RunOne(g2, Frame);
    RunCons(g1, Delivered(g.numPackages), [Frame]);
    RunCons(g, Reset, [Delivered(g.numPackages), Frame]);
    RunOne(g1, Frame);
    RunCons(g, Reset, [Frame]);
  }

  /** A run of one event is that event. */
  lemma {:induction false} RunOne(g: Goal, ev: Event)
    ensures Run(g, [ev]) == (Apply(g, ev).0, if Apply(g, ev).1 then 1 else 0)
  {
    assert [ev][1..] == [];
  }

  /** A run is its first event followed by the rest. */
  lemma {:induction false} RunCons(g: Goal, ev: Event, evs: seq<Event>)
    ensures Run(g, [ev] + evs) ==
      (Run(Apply(g, ev).0, evs).0, Run(Apply(g, ev).0, evs).1 + if Apply(g, ev).1 then 1 else 0)
  {
    assert ([ev] + evs)[1..] == evs;
  }

  /** Deliveries and losses only ever add packages. */
  predicate Adds(ev: Event) {
    match ev
    case Delivered(n) => n >= 0
    case Lost(n) => n >= 0
    case _ => true
  }

  /**
   * The level-done test is an exact count: once more packages are accounted
   * for than the level has, frames, deliveries and losses never finish the
   * level again until a reset.
   */
  lemma {:induction false} OverCountNeverFinishes(g: Goal, evs: seq<Event>)
    requires g.packagesDelivered + g.packagesLost > g.numPackages
    requires forall i :: 0 <= i < |evs| ==> !evs[i].Reset? && Adds(evs[i])
    ensures Run(g, evs).1 == 0
    ensures !IsLevelDone(Run(g, evs).0)
    decreases |evs|
  {
    if |evs| > 0 {
      assert !evs[0].Reset? && Adds(evs[0]);
      OverCountNeverFinishes(Apply(g, evs[0]).0, evs[1..]);
    }
  }

  /** Saved progress: the highest level unlocked, and the best rating per level (default 0). */
  datatype Progress = Progress(highestUnlocked: int, highScores: map<int, int>)

  function HighScore(p: Progress, level: int): int {
    if level in p.highScores then p.highScores[level] else 0
  }

  /** `GetCurrentLevel`: the scene name from index 5 on, parsed; -1 if that is not a number. */
  function GetCurrentLevel(sceneName: string): (level: int)
    requires |sceneName| >= 5
    ensures ParseInt32(sceneName[5..]).Some? ==> level == ParseInt32(sceneName[5..]).value
    ensures ParseInt32(sceneName[5..]).None? ==> level == -1
  {
    match ParseInt32(sceneName[5..])
    case Some(n) => n
    case None => -1
  }

  /** A level scene named with a five-letter prefix and its number reports that number. */
  lemma {:induction false} LevelNameRoundTrip(prefix: string, n: int)
    requires |prefix| == 5 && IntMin <= n <= IntMax
    ensures GetCurrentLevel(prefix + IntToString(n)) == n
  {
    assert (prefix + IntToString(n))[5..] == IntToString(n);
    Int32RoundTrip(n);
  }

  /** The result of finishing a level: the rating, and the saved progress afterwards. */
  datatype Finish = Finish(performance: int, progress: Progress)

  /**
   * `FinishLevel` without its UI: rate the round, and when at least half the
   * packages arrived within budget, unlock the next level and keep the better
   * rating.
   */
  function FinishLevel(g: Goal, remaining: int, optimal: int, sceneName: string, saved: Progress): (r: Finish)
    requires AtLeast(Percent(g.packagesDelivered, g.numPackages), 50.0) && remaining >= 0 ==> |sceneName| >= 5
    ensures r.performance == DeterminePerformance(Percent(g.packagesDelivered, g.numPackages), remaining, optimal)
    ensures !(AtLeast(Percent(g.packagesDelivered, g.numPackages), 50.0) && remaining >= 0) ==> r.progress == saved
    ensures AtLeast(Percent(g.packagesDelivered, g.numPackages), 50.0) && remaining >= 0 ==>
      var level := GetCurrentLevel(sceneName);
      && r.progress.highestUnlocked == Max(saved.highestUnlocked, level + 1)
      && HighScore(r.progress, level) == Max(HighScore(saved, level), r.performance)
      && forall l :: l != level ==> HighScore(r.progress, l) == HighScore(saved, l)
    ensures r.progress.highestUnlocked >= saved.highestUnlocked
  {
    var percent := Percent(g.packagesDelivered, g.numPackages);
    var perf := DeterminePerformance(percent, remaining, optimal);
    if AtLeast(percent, 50.0) && remaining >= 0 then
      var level := GetCurrentLevel(sceneName);
      var unlocked := if saved.highestUnlocked < level + 1 then level + 1 else saved.highestUnlocked;
      var scores := if perf > HighScore(saved, level) then saved.highScores[level := perf] else saved.highScores;
      Finish(perf, Progress(unlocked, scores))
    else Finish(perf, saved)
  }

  /**
   * A saved best rating, 0 for a level never rated, never goes down, whatever
   * the round and whichever level it was.
   */
  lemma {:induction false} ScoresNeverDrop(g: Goal, remaining: int, optimal: int, sceneName: string, saved: Progress, l: int)
    requires AtLeast(Percent(g.packagesDelivered, g.numPackages), 50.0) && remaining >= 0 ==> |sceneName| >= 5
    ensures HighScore(FinishLevel(g, remaining, optimal, sceneName, saved).progress, l) >= HighScore(saved, l)
  {
  }

  function Max(a: int, b: int): int {
    if a >= b then a else b
  }
}

=== FILE: holding.dfy ===
/**
 * The holding pen of Holding.cs: players walking into it are slowed and
 * held until as many are inside as the pen's threshold, at which point all of
 * them are released at full speed and the pen shuts down for good. The pen's
 * scale and position changes are not modelled.
 */
module Holding {
  import opened Base
  import opened Numerals

  /** Unit speeds the pen assigns. */
  const HeldSpeed: real := 0.2
  const FreeSpeed: real := 2.0

  /** Who touched the pen's trigger: a player unit with its identity, or anything else. */
  datatype Collider = Player(id: nat) | Other

  datatype Pen = Pen(
    threshold: int,            // ThresholdNumHeldPlayers
    held: seq<nat>,            // HeldPlayers
    stopped: bool,
    active: bool,              // gameObject.activeSelf
    thresholdText: string,     // ThresholdText.text
    speeds: map<nat, real>)    // UnitSpeed of the units the pen has touched

  /** The threshold label: held count, a slash, the threshold. */
  function Label(count: int, threshold: int): string {
    IntToString(count) + "/" + IntToString(threshold)
  }

  /** Split at the slash after the count, the threshold label reads back as both numbers. */
  lemma {:induction false} LabelReadsBack(count: int, threshold: int)
    ensures var text := Label(count, threshold);
      var k := |IntToString(count)|;
      && k < |text| && text[k] == '/'
      && ParseInt(text[..k]) == Some(count)
      && ParseInt(text[k + 1..]) == Some(threshold)
  {
    var head := IntToString(count);
    var tail := IntToString(threshold);
    var text := Label(count, threshold);
    IntRoundTrip(count);
    IntRoundTrip(threshold);
    assert text[..|head|] == head && text[|head| + 1..] == tail;
  }

  /** The label shows the current count and threshold. */
  predicate LabelCurrent(p: Pen) {
    p.thresholdText == Label(|p.held|, p.threshold)
  }

  /** `IncrementThreshold`. */
  function IncrementThreshold(p: Pen): (r: Pen)
    ensures r.threshold == p.threshold + 1
    ensures r == p.(threshold := r.threshold, thresholdText := r.thresholdText)
    ensures LabelCurrent(r)
  {
    var t := p.threshold + 1;
    p.(threshold := t, thresholdText := Label(|p.held|, t))
  }

  /** `DecrementThreshold`: never below one, if it started at one or more. */
  function DecrementThreshold(p: Pen): (r: Pen)
    ensures p.threshold == 1 ==> r == p
    ensures p.threshold != 1 ==> r.threshold == p.threshold - 1 && LabelCurrent(r)
    ensures p.threshold >= 1 ==> r.threshold >= 1
    ensures r == p.(threshold := r.threshold, thresholdText := r.thresholdText)
  {
    if p.threshold == 1 then p
    else
      var t := p.threshold - 1;
      p.(threshold := t, thresholdText := Label(|p.held|, t))
  }

  /** Raising and then lowering the threshold gives the pen back, apart from a refreshed label. */
  lemma {:induction false} IncrementThenDecrement(p: Pen)
    requires p.threshold != 0
    ensures DecrementThreshold(IncrementThreshold(p)) == p.(thresholdText := Label(|p.held|, p.threshold))
  {
  }

  /** Every held player released at full speed. */
  function Release(speeds: map<nat, real>, held: seq<nat>): (r: map<nat, real>)
    ensures forall u :: u in held ==> u in r && r[u] == FreeSpeed
    ensures forall u :: u in speeds && u !in held ==> u in r && r[u] == speeds[u]
    ensures forall u :: u in r ==> u in speeds || u in held
    decreases |held|
  {
    if |held| == 0 then speeds else Release(speeds[held[0] := FreeSpeed], held[1..])
  }

  /** `List.Remove`: drop the first occurrence, if any. */
  function RemoveFirst(s: seq<nat>, x: nat): (r: seq<nat>)
    ensures x !in s ==> r == s
    ensures x in s ==> |r| == |s| - 1 && multiset(r) == multiset(s) - multiset{x}
  {
    if |s| == 0 then s
    else if s[0] == x then
      assert s == [s[0]] + s[1..];
      s[1..]
    else
      assert s == [s[0]] + s[1..];
      [s[0]] + RemoveFirst(s[1..], x)
  }

  /**
   * `OnTriggerEnter`: while not stopped, a player is slowed and held; then, if
   * as many are held as the threshold asks, they are all released and the pen
   * stops and deactivates.
   */
  function Enter(p: Pen, c: Collider): (r: Pen)
    ensures p.stopped ==> r == p
    ensures !p.stopped && c.Player? && |p.held| + 1 != p.threshold ==>
      && r.held == p.held + [c.id]
      && r.speeds == p.speeds[c.id := HeldSpeed]
      && LabelCurrent(r)
      && r == p.(held := r.held, speeds := r.speeds, thresholdText := r.thresholdText)
    ensures !p.stopped && (if c.Player? then |p.held| + 1 else |p.held|) == p.threshold ==>
      && r.stopped && !r.active && r.held == [] && r.threshold == p.threshold
      && r.thresholdText == (if c.Player? then Label(p.threshold, p.threshold) else p.thresholdText)
      && (forall u :: u in p.held ==> u in r.speeds && r.speeds[u] == FreeSpeed)
      && (c.Player? ==> c.id in r.speeds && r.speeds[c.id] == FreeSpeed)
      // units the pen never held keep their speed, and no other unit gains one
      && (forall u :: u in p.speeds && u !in p.held && !(c.Player? && u == c.id) ==>
            u in r.speeds && r.speeds[u] == p.speeds[u])
      && (forall u :: u in r.speeds ==> u in p.speeds || u in p.held || (c.Player? && u == c.id))
    ensures !p.stopped && c.Other? && |p.held| != p.threshold ==> r == p
  {
    if p.stopped then p
    else
      var p1 := match c
        case Player(id) =>
          var held := p.held + [id];
          p.(speeds := p.speeds[id := HeldSpeed], held := held, thresholdText := Label(|held|, p.threshold))
        case Other => p;
      if |p1.held| == p1.threshold then
        p1.(stopped := true, speeds := Release(p1.speeds, p1.held), held := [], active := false)
      else p1
  }

  /** `OnTriggerExit`: while not stopped, a leaving player is freed and let go. */
  function Exit(p: Pen, c: Collider): (r: Pen)
    ensures p.stopped || c.Other? ==> r == p
    ensures !p.stopped && c.Player? ==>
      && r.held == RemoveFirst(p.held, c.id)
      && r.speeds == p.speeds[c.id := FreeSpeed]
      && LabelCurrent(r)
      && r == p.(held := r.held, speeds := r.speeds, thresholdText := r.thresholdText)
  {
    if p.stopped then p
    else match c
      case Player(id) =>
        var held := RemoveFirst(p.held, id);
        p.(speeds := p.speeds[id := FreeSpeed], held := held, thresholdText := Label(|held|, p.threshold))
      case Other => p
  }

  /**
   * The pen's invariant: while it runs, the label is current and fewer are
   * held than the threshold; once stopped, it is empty and inactive.
   */
  predicate Valid(p: Pen) {
    if p.stopped then p.held == [] && !p.active
    else LabelCurrent(p) && |p.held| < p.threshold
  }

  /** Entering and leaving keep the invariant. */
  lemma {:induction false} EnterExitKeepValid(p: Pen, c: Collider)
    requires Valid(p)
    ensures Valid(Enter(p, c)) && Valid(Exit(p, c))
  {
  }

  /** Once stopped, the pen ignores whoever enters or leaves. */
  lemma {:induction false} StoppedIsFinal(p: Pen, cs: seq<(bool, Collider)>)
    requires p.stopped
    ensures Events(p, cs) == p
    decreases |cs|
  {
    if |cs| > 0 {
      StoppedIsFinal(if cs[0].0 then Enter(p, cs[0].1) else Exit(p, cs[0].1), cs[1..]);
    }
  }

  /** A sequence of trigger events: `true` for an entry, `false` for an exit. */
  function Events(p: Pen, cs: seq<(bool, Collider)>): Pen
    decreases |cs|
  {
    if |cs| == 0 then p
    else Events(if cs[0].0 then Enter(p, cs[0].1) else Exit(p, cs[0].1), cs[1..])
  }
}

=== FILE: money_manager.dfy ===
/**
 * The level budget and item stock of MoneyManager.cs: buying an item,
 * buying the last one again, refunding by name, resetting the budget, and
 * the text the money label shows.
 */
module MoneyManager {
  import opened Base
  import opened Numerals

  /** A buildable item; `unlimited` items ignore their stock when bought. */
  datatype Item = Item(name: string, price: int, quantity: int, unlimited: bool)

  datatype Manager = Manager(
    startingMoney: int,
    optimalRemaining: int,
    moneySpent: int,
    items: seq<Item>,
    lastItemId: int)

  /** How a purchase attempt ended; a bought item is handed to the build manager by name. */
  datatype Choice = NoMoney | NoStock | Bought(name: string)

  /** `GetRemainingMoney`. */
  function Remaining(m: Manager): int {
    m.startingMoney - m.moneySpent
  }

  /** The same manager with the stock of item `i` moved by `delta`. */
  function Restock(items: seq<Item>, i: nat, delta: int): (r: seq<Item>)
    requires i < |items|
    ensures |r| == |items|
    ensures r[i] == items[i].(quantity := items[i].quantity + delta)
    ensures forall j :: 0 <= j < |items| && j != i ==> r[j] == items[j]
  {
    items[i := items[i].(quantity := items[i].quantity + delta)]
  }

  /**
   * `ChooseItem(itemId)`: the id is always remembered; a purchase the budget
   * cannot cover is refused first, then one that is out of stock, and
   * otherwise the price is spent and one unit taken from stock.
   */
  function ChooseItem(m: Manager, id: int): (r: (Manager, Choice))
    requires 0 <= id < |m.items|
    ensures r.0.lastItemId == id
    ensures r.1 == NoMoney <==> m.items[id].price > Remaining(m)
    ensures r.1 == NoStock <==>
      m.items[id].price <= Remaining(m) && m.items[id].quantity < 1 && !m.items[id].unlimited
    ensures !r.1.Bought? ==> r.0 == m.(lastItemId := id)
    ensures r.1.Bought? ==>
      && r.1.name == m.items[id].name
      && r.0.moneySpent == m.moneySpent + m.items[id].price
      && r.0.items == Restock(m.items, id, -1)
      && 0 <= Remaining(r.0) == Remaining(m) - m.items[id].price
    ensures r.0.startingMoney == m.startingMoney && r.0.optimalRemaining == m.optimalRemaining
  {
    var item := m.items[id];
    var m' := m.(lastItemId := id);
    if item.price > Remaining(m') then (m', NoMoney)
    else if item.quantity < 1 && !item.unlimited then (m', NoStock)
    else (m'.(moneySpent := m.moneySpent + item.price, items := Restock(m.items, id, -1)), Bought(item.name))
  }

  /** `CopyItem`: buy the remembered item again. */
  function CopyItem(m: Manager): (r: (Manager, Choice))
    requires 0 <= m.lastItemId < |m.items|
    ensures r == ChooseItem(m, m.lastItemId)
    ensures r.0.lastItemId == m.lastItemId
  {
    ChooseItem(m, m.lastItemId)
  }

  /** The index of the first item called `name`, if there is one. */
  function FirstNamed(items: seq<Item>, name: string): (r: Option<nat>)
    ensures r.Some? ==> r.value < |items| && items[r.value].name == name
    ensures r.Some? ==> forall j :: 0 <= j < r.value ==> items[j].name != name
    ensures r.None? ==> forall j :: 0 <= j < |items| ==> items[j].name != name
  {
    if |items| == 0 then None
    else if items[0].name == name then Some(0)
    else match FirstNamed(items[1..], name)
      case None => None
      case Some(j) => Some(j + 1)
  }

  /** `UpdateLastItem(itemName)`: remember the first item of that name, if any. */
  function UpdateLastItem(m: Manager, name: string): (r: Manager)
    ensures r == m.(lastItemId := r.lastItemId)
    ensures (exists j :: 0 <= j < |m.items| && m.items[j].name == name) ==>
      && 0 <= r.lastItemId < |m.items|
      && m.items[r.lastItemId].name == name
      && forall j :: 0 <= j < r.lastItemId ==> m.items[j].name != name
    ensures (forall j :: 0 <= j < |m.items| ==> m.items[j].name != name) ==> r == m
  {
    match FirstNamed(m.items, name)
    case None => m
    case Some(i) => m.(lastItemId := i)
  }

  /**
   * `RefundItem(itemName)`: only the first item of that name gets a unit back
   * and its price returned to the budget.
   */
  function RefundItem(m: Manager, name: string): (r: Manager)
    ensures (forall j :: 0 <= j < |m.items| ==> m.items[j].name != name) ==> r == m
    ensures forall i ::
      (0 <= i < |m.items| && m.items[i].name == name && forall j :: 0 <= j < i ==> m.items[j].name != name)
      ==> r == m.(items := Restock(m.items, i, 1), moneySpent := m.moneySpent - m.items[i].price)
  {
    match FirstNamed(m.items, name)
    case None => m
    case Some(i) => m.(items := Restock(m.items, i, 1), moneySpent := m.moneySpent - m.items[i].price)
  }

  /** `ResetMoney`: nothing spent; the stock is left as it is. */
  function ResetMoney(m: Manager): (r: Manager)
    ensures Remaining(r) == r.startingMoney == m.startingMoney
    ensures r.items == m.items && r.lastItemId == m.lastItemId
  {
    m.(moneySpent := 0)
  }

  predicate UniqueNames(items: seq<Item>) {
    forall i, j :: 0 <= i < j < |items| ==> items[i].name != items[j].name
  }

  /** With unique names, refunding a bought item restores the budget and the stock. */
  lemma {:induction false} ChooseThenRefund(m: Manager, id: int)
    requires 0 <= id < |m.items| && UniqueNames(m.items)
    requires ChooseItem(m, id).1.Bought?
    ensures RefundItem(ChooseItem(m, id).0, m.items[id].name) == m.(lastItemId := id)
  {
    var bought := ChooseItem(m, id).0;
    var refunded := RefundItem(bought, m.items[id].name);
    assert forall j :: 0 <= j < id ==> bought.items[j].name != m.items[id].name;
    assert refunded.items == m.items;
  }

  /** No purchase or copy can take the remaining budget below zero if it was not already. */
  lemma {:induction false} ChooseKeepsBudget(m: Manager, id: int)
    requires 0 <= id < |m.items| && Remaining(m) >= 0
    ensures Remaining(ChooseItem(m, id).0) >= 0
  {
  }

  /** The hundreds part of a large amount, always three digits: `ones.ToString()` padded with zeros. */
  function PadThree(ones: nat): (s: string)
    requires ones < 1000
    ensures |s| == 3 && AllDigits(s) && DigitsValue(s) == ones
  {
    NatRoundTrip(ones);
    if ones >= 100 then
      assert |NatToString(ones)| == 3 by { NatToStringLength(ones); }
      NatToString(ones)
    else if ones >= 10 then
      assert |NatToString(ones)| == 2 by { NatToStringLength(ones); }
      LeadingZero(NatToString(ones));
      "0" + NatToString(ones)
    else if ones >= 1 then
      LeadingZero(NatToString(ones));
      LeadingZero("0" + NatToString(ones));
      assert "00" + NatToString(ones) == "0" + ("0" + NatToString(ones));
      "00" + NatToString(ones)
    else "000"
  }

  lemma {:induction false} LeadingZero(s: string)
    requires AllDigits(s)
    ensures AllDigits("0" + s) && DigitsValue("0" + s) == DigitsValue(s)
    decreases |s|
  {
    if |s| > 0 {
      var t := "0" + s;
      assert t[..|t| - 1] == "0" + s[..|s| - 1];
      LeadingZero(s[..|s| - 1]);
    }
  }

  lemma {:induction false} NatToStringLength(n: nat)
    ensures n < 10 ==> |NatToString(n)| == 1
    ensures 10 <= n < 100 ==> |NatToString(n)| == 2
    ensures 100 <= n < 1000 ==> |NatToString(n)| == 3
    decreases n
  {
    if n >= 10 {
      NatToStringLength(n / 10);
    }
  }

  /**
   * The text `DisplayRemainingMoney` puts on the money label: "NO CASH" exactly
   * when nothing is left, a comma exactly when the amount reaches a thousand,
   * sitting before the last three digits, which are the amount's ones padded
   * to three; and in every case a label that reads back as the amount.
   */
  function MoneyText(remaining: int): (text: string)
    ensures text == "NO CASH" <==> remaining <= 0
    ensures remaining > 0 ==> (',' in text <==> remaining >= 1000)
    ensures remaining >= 1000 ==>
      |text| >= 5 && text[|text| - 4] == ',' && text[|text| - 3..] == PadThree(remaining % 1000)
    ensures remaining > 0 ==> ReadMoney(text) == Some(remaining)
  {
    if remaining <= 0 then "NO CASH"
    else if remaining >= 1000 then
      var thousands := remaining / 1000;
      var ones := remaining - thousands * 1000;
      assert ones == remaining % 1000;
      NatRoundTrip(thousands);
      ReadGrouped(NatToString(thousands), PadThree(ones));
      CommaOnlyBeforeOnes(NatToString(thousands), PadThree(ones));
      var text := "$" + NatToString(thousands) + "," + PadThree(ones);
      assert text[0] == '$' && text[|text| - 4] == ',' && text[|text| - 3..] == PadThree(ones);
      text
    else
      NatRoundTrip(remaining);
      NoComma(NatToString(remaining));
      var text := "$" + NatToString(remaining);
      assert text[0] == '$' && text[1..] == NatToString(remaining);
      text
  }

  /** A dollar sign before digits carries no comma. */
  lemma {:induction false} NoComma(digits: string)
    requires AllDigits(digits)
    ensures ',' !in "$" + digits
  {
    var t := "$" + digits;
    forall k | 0 <= k < |t|
      ensures t[k] != ','
    {
      if k > 0 {
        assert t[k] == digits[k - 1];
        assert IsDigit(digits[k - 1]);
      }
    }
  }

  /** In a dollar sign, digits, a comma and three digits, the only comma is fourth from the end. */
  lemma {:induction false} CommaOnlyBeforeOnes(head: string, tail: string)
    requires AllDigits(head) && AllDigits(tail) && |tail| == 3
    ensures forall k :: 0 <= k < |"$" + head + "," + tail| && ("$" + head + "," + tail)[k] == ',' ==>
      k == |head| + 1
  {
    var t := "$" + head + "," + tail;
    forall k | 0 <= k < |t| && k != |head| + 1
      ensures t[k] != ','
    {
      if k == 0 {
      } else if k <= |head| {
        assert t[k] == head[k - 1];
        assert IsDigit(head[k - 1]);
      } else {
        assert t[k] == tail[k - |head| - 2];
        assert IsDigit(tail[k - |head| - 2]);
      }
    }
  }

  /**
   * How a player reads the money label: a dollar sign, digits, and at most one
   * comma with exactly three digits after it. Anything else reads as no amount.
   */
  function ReadMoney(text: string): (r: Option<int>)
  {
    if |text| < 2 || text[0] != '$' then None
    else
      var body := text[1..];
      if AllDigits(body) then Some(DigitsValue(body))
      else if |body| >= 5 && body[|body| - 4] == ',' && AllDigits(body[..|body| - 4]) && AllDigits(body[|body| - 3..])
        && |body[..|body| - 4]| >= 1
      then Some(DigitsValue(body[..|body| - 4]) * 1000 + DigitsValue(body[|body| - 3..]))
      else None
  }

  /** A dollar sign, digits, a comma and three digits read as thousands and ones. */
  lemma {:induction false} ReadGrouped(head: string, tail: string)
    requires |head| >= 1 && AllDigits(head) && |tail| == 3 && AllDigits(tail)
    ensures ReadMoney("$" + head + "," + tail) == Some(DigitsValue(head) * 1000 + DigitsValue(tail))
  {
    var text := "$" + head + "," + tail;
    var body := head + "," + tail;
    assert text[0] == '$' && text[1..] == body;
    assert !AllDigits(body) by {
      assert body[|head|] == ',';
    }
    assert body[..|body| - 4] == head;
    assert body[|body| - 3..] == tail;
  }

  /**
   * The label carries one comma at most: the one before the last three digits,
   * with the thousands written out in front of it. Below a thousand the dollar
   * sign is followed by the amount's own digits, with no padding.
   */
  lemma {:induction false} MoneyTextOneComma(remaining: int)
    ensures forall i, j :: 0 <= i < j < |MoneyText(remaining)| ==>
      !(MoneyText(remaining)[i] == ',' && MoneyText(remaining)[j] == ',')
    ensures forall k :: 0 <= k < |MoneyText(remaining)| && MoneyText(remaining)[k] == ',' ==>
      k == |MoneyText(remaining)| - 4
    ensures remaining > 0 ==> MoneyText(remaining)[0] == '$'
    ensures 0 < remaining < 1000 ==> MoneyText(remaining)[1..] == NatToString(remaining)
    ensures remaining >= 1000 ==> MoneyText(remaining)[1..|MoneyText(remaining)| - 4] == NatToString(remaining / 1000)
  {
    var t := MoneyText(remaining);
    if remaining >= 1000 {
      var thousands := remaining / 1000;
      var ones := remaining - thousands * 1000;
      var head := NatToString(thousands);
      var tail := PadThree(ones);
      assert t == "$" + head + "," + tail;
      CommaOnlyBeforeOnes(head, tail);
      assert t[1..|t| - 4] == head;
    } else if remaining > 0 {
      assert t == "$" + NatToString(remaining);
      assert ',' !in t;
    } else {
      assert ',' !in t;
    }
  }
}

=== FILE: numerals.dfy ===
/**
 * Decimal text of integers, as produced by C#'s `int.ToString()` and read
 * back by `int.Parse` / `int.TryParse`. Several scripts write counters into
 * UI labels and parse them again, so the round trip matters.
 */
module Numerals {
  import opened Base

  /** The range of a C# `int`. */
  const IntMin: int := -0x8000_0000
  const IntMax: int := 0x7fff_ffff

  predicate IsDigit(c: char) {
    '0' <= c <= '9'
  }

  predicate AllDigits(s: string) {
    forall i :: 0 <= i < |s| ==> IsDigit(s[i])
  }

  function DigitChar(d: nat): (c: char)
    requires d < 10
    ensures IsDigit(c)
  {
    (('0' as int) + d) as char
  }

  function DigitValue(c: char): (d: nat)
    requires IsDigit(c)
    ensures d < 10
  {
    (c as int) - ('0' as int)
  }

  /** The number a run of digits denotes (most significant digit first). */
  function DigitsValue(s: string): nat
    requires AllDigits(s)
  {
    if |s| == 0 then 0 else DigitsValue(s[..|s| - 1]) * 10 + DigitValue(s[|s| - 1])
  }

  /** `n.ToString()` for a non-negative `n`: digits only, no leading zero. */
  function NatToString(n: nat): (s: string)
    ensures |s| >= 1 && AllDigits(s)
    ensures |s| > 1 ==> s[0] != '0'
  {
    if n < 10 then [DigitChar(n)] else NatToString(n / 10) + [DigitChar(n % 10)]
  }

  /** `n.ToString()`: a minus sign in front of negative numbers. */
  function IntToString(n: int): (s: string)
    ensures |s| >= 1
    ensures n < 0 <==> s[0] == '-'
    ensures n >= 0 ==> AllDigits(s)
  {
    if n < 0 then "-" + NatToString(-n) else NatToString(n)
  }

  /**
   * The integer syntax accepted here: an optional '-' followed by at least one
   * digit. Anything else is a parse failure.
   */
  function ParseInt(s: string): (r: Option<int>)
    ensures r.Some? <==> (|s| >= 1 && AllDigits(s)) || (|s| >= 2 && s[0] == '-' && AllDigits(s[1..]))
    ensures r.Some? && s[0] != '-' ==> r.value >= 0
  {
    if |s| >= 1 && AllDigits(s) then Some(DigitsValue(s))
    else if |s| >= 2 && s[0] == '-' && AllDigits(s[1..]) then Some(-(DigitsValue(s[1..]) as int))
    else None
  }

  /** `int.Parse` / `int.TryParse`: as ParseInt, and the value must fit in an `int`. */
  function ParseInt32(s: string): (r: Option<int>)
    ensures r.Some? ==> IntMin <= r.value <= IntMax && ParseInt(s) == r
    ensures ParseInt(s).Some? && IntMin <= ParseInt(s).value <= IntMax ==> r == ParseInt(s)
  {
    match ParseInt(s)
    case Some(n) => if IntMin <= n <= IntMax then Some(n) else None
    case None => None
  }

  lemma {:induction false} DigitsValueSnoc(s: string, c: char)
    requires AllDigits(s) && IsDigit(c)
    ensures AllDigits(s + [c])
    ensures DigitsValue(s + [c]) == DigitsValue(s) * 10 + DigitValue(c)
  {
    assert (s + [c])[..|s + [c]| - 1] == s;
  }

  /** Reading back the digits `ToString` wrote gives the number again. */
  lemma {:induction false} NatRoundTrip(n: nat)
    ensures DigitsValue(NatToString(n)) == n
    decreases n
  {
    if n < 10 {
      assert NatToString(n) == [] + [DigitChar(n)];
      DigitsValueSnoc([], DigitChar(n));
    } else {
      NatRoundTrip(n / 10);
      DigitsValueSnoc(NatToString(n / 10), DigitChar(n % 10));
    }
  }

  /** Parsing what `ToString` wrote gives the number back, negative or not. */
  lemma {:induction false} IntRoundTrip(n: int)
    ensures ParseInt(IntToString(n)) == Some(n)
  {
    var s := IntToString(n);
    if n < 0 {
      var digits := NatToString(-n);
      assert s == "-" + digits;
      assert s[1..] == digits;
      assert !AllDigits(s) by { assert !IsDigit(s[0]); }
      NatRoundTrip(-n);
    } else {
      NatRoundTrip(n);
    }
  }

  /** The same round trip through `int.Parse`, for every value an `int` can hold. */
  lemma {:induction false} Int32RoundTrip(n: int)
    requires IntMin <= n <= IntMax
    ensures ParseInt32(IntToString(n)) == Some(n)
  {
    IntRoundTrip(n);
  }
}

=== FILE: string_utility.dfy ===
/**
 * The typewriter effect of StringUtility.TypeText, without its timing: the
 * content string is a small markup language whose escape sequences start with
 * a backslash. `\n` types a line break, `\p` and `\s` only pause (so they type
 * nothing here), any other escaped character is swallowed, and a backslash as
 * the very last character ends typing early.
 */
module StringUtility {

  const Backslash: char := '\\'

  /** What the markup `content` types onto the display, read left to right. */
  function Render(content: string): (typed: string)
    ensures |typed| <= |content|
  {
    if |content| == 0 then ""
    else if content[0] != Backslash then [content[0]] + Render(content[1..])
    else if |content| == 1 then ""
    else (if content[1] == 'n' then "\n" else "") + Render(content[2..])
  }

  /**
   * TypeText as the character loop it is: the display text `display` gets each
   * typed character appended in turn.
   */
  method TypeText(display: string, content: string) returns (text: string)
    ensures text == display + Render(content)
  {
    text := display;
    var i := 0;
    while i < |content|
      invariant 0 <= i <= |content|
      invariant text + Render(content[i..]) == display + Render(content)
    {
      var letter := content[i];
      if letter == Backslash {
        if i == |content| - 1 {
          assert Render(content[i..]) == "";
          break;
        }
        var nextLetter := content[i + 1];
        assert content[i..][2..] == content[i + 2..];
        i := i + 1;
        if nextLetter == 'n' {
          text := text + "\n";
        }
      } else {
        assert content[i..][1..] == content[i + 1..];
        text := text + [letter];
      }
      i := i + 1;
    }
  }

  /** Markup for plain text: line breaks become `\n`. */
  function Escape(plain: string): (markup: string)
    ensures |markup| >= |plain|
  {
    if |plain| == 0 then ""
    else (if plain[0] == '\n' then [Backslash, 'n'] else [plain[0]]) + Escape(plain[1..])
  }

  /** Text without backslashes is typed exactly as written. */
  lemma {:induction false} RenderPlain(content: string)
    requires forall i :: 0 <= i < |content| ==> content[i] != Backslash
    ensures Render(content) == content
  {
    if |content| > 0 {
      RenderPlain(content[1..]);
    }
  }

  /** Rendering distributes over a split after a non-backslash character. */
  lemma {:induction false} RenderAppendChar(c: char, rest: string)
    requires c != Backslash
    ensures Render([c] + rest) == [c] + Render(rest)
  {
    assert ([c] + rest)[1..] == rest;
  }

  /** Typing the markup of a backslash-free text gives that text back. */
  lemma {:induction false} EscapeRoundTrip(plain: string)
    requires forall i :: 0 <= i < |plain| ==> plain[i] != Backslash
    ensures Render(Escape(plain)) == plain
  {
    if |plain| > 0 {
      EscapeRoundTrip(plain[1..]);
      var m := Escape(plain);
      if plain[0] == '\n' {
        assert m == [Backslash, 'n'] + Escape(plain[1..]);
        assert m[2..] == Escape(plain[1..]);
      } else {
        RenderAppendChar(plain[0], Escape(plain[1..]));
      }
      assert plain == [plain[0]] + plain[1..];
    }
  }

  /**
   * A backslash at the very end stops typing: whatever the markup before it
   * types is kept, and the backslash adds nothing. Before plain text, that is
   * the text itself.
   */
  lemma {:induction false} TrailingBackslash(prefix: string)
    ensures Render(prefix + [Backslash]) == Render(prefix)
    ensures (forall i :: 0 <= i < |prefix| ==> prefix[i] != Backslash) ==> Render(prefix + [Backslash]) == prefix
    decreases |prefix|
  {
    var whole := prefix + [Backslash];
    if |prefix| == 0 {
    } else if prefix[0] != Backslash {
      assert whole[1..] == prefix[1..] + [Backslash];
      TrailingBackslash(prefix[1..]);
    } else if |prefix| == 1 {
      assert whole[2..] == [];
    } else {
      assert whole[2..] == prefix[2..] + [Backslash];
      TrailingBackslash(prefix[2..]);
    }
    if forall i :: 0 <= i < |prefix| ==> prefix[i] != Backslash {
      RenderPlain(prefix);
    }
  }

  /** Every escape other than `\n` consumes two characters and types nothing. */
  lemma {:induction false} EscapeTypesNothing(c: char, rest: string)
    requires c != 'n'
    ensures Render([Backslash, c] + rest) == Render(rest)
  {
    assert ([Backslash, c] + rest)[2..] == rest;
  }

  /** `\n` consumes two characters and types one line break. */
  lemma {:induction false} NewlineEscape(rest: string)
    ensures Render([Backslash, 'n'] + rest) == "\n" + Render(rest)
  {
    assert ([Backslash, 'n'] + rest)[2..] == rest;
  }
}

=== FILE: tutorial_money_manager.dfy ===
/**
 * The tutorial's budget, TutorialMoneyManager.cs. Unlike the level budget it
 * keeps each item's stock and price only as the text of its button's
 * labels: the quantity label reads "x" followed by the count, and both labels
 * are parsed back with `int.Parse` whenever they are needed. A label that does
 * not parse raises an exception, which ends the handler there.
 */
module TutorialMoneyManager {
  import opened Base
  import opened Numerals

  /** The three labels of an item button: quantity ("x3"), price ("25") and name. */
  datatype Button = Button(quantityText: string, priceText: string, nameText: string)

  datatype Tutorial = Tutorial(startingMoney: int, moneySpent: int, buttons: seq<Button>)

  /** How a purchase attempt ended. */
  datatype Purchase = Malformed | Declined | Bought(name: string)

  /** `GetRemainingMoney`. */
  function Remaining(t: Tutorial): int {
    t.startingMoney - t.moneySpent
  }

  /** The quantity label for `n` units: `"x" + n`. */
  function QuantityText(n: int): (s: string)
    ensures |s| >= 2 && s[0] == 'x'
  {
    "x" + IntToString(n)
  }

  /** `int.Parse(text.Substring(1))`; `Substring` throws on an empty label. */
  function ParseQuantity(text: string): Option<int> {
    if |text| == 0 then None else ParseInt32(text[1..])
  }

  /**
   * The first character of a quantity label is dropped unchecked, whatever it
   * is, and an empty label does not parse.
   */
  lemma {:induction false} QuantityIgnoresPrefix(c: char, rest: string)
    ensures ParseQuantity([c] + rest) == ParseInt32(rest)
    ensures ParseQuantity("") == None
  {
    assert ([c] + rest)[1..] == rest;
  }

  /** The quantity label round-trips for every count an `int` can hold. */
  lemma {:induction false} QuantityRoundTrip(n: int)
    requires IntMin <= n <= IntMax
    ensures ParseQuantity(QuantityText(n)) == Some(n)
  {
    assert QuantityText(n)[1..] == IntToString(n);
    Int32RoundTrip(n);
  }

  /**
   * `ChooseItem(itemId)`: both labels are parsed first; a purchase the budget
   * cannot cover or the stock cannot supply changes nothing; otherwise the
   * price is spent and the quantity label counts one down.
   */
  function ChooseItem(t: Tutorial, id: int): (r: (Tutorial, Purchase))
    requires 0 <= id < |t.buttons|
    ensures r.1 == Malformed <==>
      ParseQuantity(t.buttons[id].quantityText).None? || ParseInt32(t.buttons[id].priceText).None?
    ensures !r.1.Bought? ==> r.0 == t
    ensures r.1 == Declined ==>
      ParseInt32(t.buttons[id].priceText).value > Remaining(t)
      || ParseQuantity(t.buttons[id].quantityText).value < 1
    ensures r.1.Bought? ==>
      var q := ParseQuantity(t.buttons[id].quantityText).value;
      var p := ParseInt32(t.buttons[id].priceText).value;
      && p <= Remaining(t) && q >= 1
      && r.1.name == t.buttons[id].nameText
      && r.0.moneySpent == t.moneySpent + p
      && 0 <= Remaining(r.0) == Remaining(t) - p
      && r.0.buttons == t.buttons[id := t.buttons[id].(quantityText := QuantityText(q - 1))]
      && r.0.startingMoney == t.startingMoney
  {
    var b := t.buttons[id];
    match (ParseQuantity(b.quantityText), ParseInt32(b.priceText))
    case (Some(quantity), Some(price)) =>
      if price > Remaining(t) || quantity < 1 then (t, Declined)
      else
        (t.(moneySpent := t.moneySpent + price,
            buttons := t.buttons[id := b.(quantityText := QuantityText(quantity - 1))]),
         Bought(b.nameText))
    case _ => (t, Malformed)
  }

  /** Both labels of a button parse. */
  predicate WellFormed(b: Button) {
    ParseQuantity(b.quantityText).Some? && ParseInt32(b.priceText).Some?
  }

  /** The total price of the buttons called `name`; a price label that does not parse adds nothing. */
  function PriceOfNamed(bs: seq<Button>, name: string): int
  {
    if |bs| == 0 then 0
    else
      var here := if bs[0].nameText == name then PriceOrZero(bs[0]) else 0;
      here + PriceOfNamed(bs[1..], name)
  }

  function PriceOrZero(b: Button): int {
    match ParseInt32(b.priceText)
    case Some(p) => p
    case None => 0
  }

  /** A button with its quantity label counted up by one. */
  function CountedUp(b: Button): (r: Button)
    requires ParseQuantity(b.quantityText).Some?
    ensures r.nameText == b.nameText && r.priceText == b.priceText
  {
    b.(quantityText := QuantityText(ParseQuantity(b.quantityText).value + 1))
  }

  /**
   * The refund loop over the buttons from the front: each button called
   * `name` gets its quantity label counted up and its price taken off the money
   * spent. A label that fails to parse stops the loop (`ok` false), keeping the
   * changes already made, including the quantity label of the failing button
   * when it is its price that failed.
   */
  function RefundLoop(bs: seq<Button>, name: string, spent: int): (r: (seq<Button>, int, bool))
    ensures |r.0| == |bs|
    decreases |bs|, 1
  {
    if |bs| == 0 then (bs, spent, true)
    else if bs[0].nameText != name then
      var rest := RefundLoop(bs[1..], name, spent);
      ([bs[0]] + rest.0, rest.1, rest.2)
    else RefundMatch(bs, name, spent)
  }

  /**
   * The loop's turn on a button called `name`: its quantity label is parsed and
   * counted up, then its price is parsed and taken off, and the loop goes on.
   */
  function RefundMatch(bs: seq<Button>, name: string, spent: int): (r: (seq<Button>, int, bool))
    requires |bs| > 0
    ensures |r.0| == |bs|
    decreases |bs|, 0
  {
    var b := bs[0];
    match ParseQuantity(b.quantityText)
    case None => (bs, spent, false)
    case Some(quantity) =>
      var b' := CountedUp(b);
      match ParseInt32(b.priceText)
      case None => ([b'] + bs[1..], spent, false)
      case Some(price) =>
        var rest := RefundLoop(bs[1..], name, spent - price);
        ([b'] + rest.0, rest.1, rest.2)
  }


  /** `after` has the name and price labels of `before`, and is `before` itself unless it is called `name`. */
  predicate KeptLabels(before: Button, after: Button, name: string) {
    && after.nameText == before.nameText
    && after.priceText == before.priceText
    && (before.nameText != name ==> after == before)
  }

  /**
   * Whatever the labels hold, the loop leaves the name and price labels of
   * button `i` alone, and the whole button when it is not called `name`.
   */
  lemma {:induction false} RefundLoopKeeps(bs: seq<Button>, name: string, spent: int, i: int)
    requires 0 <= i < |bs|
    ensures KeptLabels(bs[i], RefundLoop(bs, name, spent).0[i], name)
    decreases i
  {
    var b := bs[0];
    var r := RefundLoop(bs, name, spent);
    if b.nameText != name {
      var rest := RefundLoop(bs[1..], name, spent);
      assert r.0 == [b] + rest.0;
      if i > 0 {
        RefundLoopKeeps(bs[1..], name, spent, i - 1);
        assert r.0[i] == rest.0[i - 1] && bs[1..][i - 1] == bs[i];
      } else {
        assert r.0[0] == b;
      }
    } else {
      assert r == RefundMatch(bs, name, spent);
      if ParseQuantity(b.quantityText).None? {
        assert r.0 == bs;
      } else {
        var b' := CountedUp(b);
        assert KeptLabels(b, b', name);
        match ParseInt32(b.priceText)
        case None =>
          assert r.0 == [b'] + bs[1..];
          assert r.0[i] == (if i == 0 then b' else bs[i]);
        case Some(price) =>
          var rest := RefundLoop(bs[1..], name, spent - price);
          assert r.0 == [b'] + rest.0;
          if i > 0 {
            RefundLoopKeeps(bs[1..], name, spent - price, i - 1);
            assert r.0[i] == rest.0[i - 1] && bs[1..][i - 1] == bs[i];
          } else {
            assert r.0[0] == b';
          }
      }
    }
  }

  /** What one turn of the loop makes of a button whose labels parse. */
  function TurnButton(b: Button, name: string): Button
    requires WellFormed(b)
  {
    if b.nameText == name then CountedUp(b) else b
  }

  /** The money spent after one turn of the loop on a button whose labels parse. */
  function TurnSpent(b: Button, name: string, spent: int): int
    requires WellFormed(b)
  {
    if b.nameText == name then spent - ParseInt32(b.priceText).value else spent
  }

  /** One turn of the refund loop on a button whose labels parse. */
  lemma {:induction false} RefundLoopStep(bs: seq<Button>, name: string, spent: int)
    requires |bs| > 0 && WellFormed(bs[0])
    ensures
      var rest := RefundLoop(bs[1..], name, TurnSpent(bs[0], name, spent));
      RefundLoop(bs, name, spent) == ([TurnButton(bs[0], name)] + rest.0, rest.1, rest.2)
  {
    if bs[0].nameText == name {
      assert RefundLoop(bs, name, spent) == RefundMatch(bs, name, spent);
    }
  }

  /**
   * When every label parses, the loop runs to the end and takes the price of
   * each button called `name` off the money spent.
   */
  lemma {:induction false} RefundLoopWellFormed(bs: seq<Button>, name: string, spent: int)
    requires forall i :: 0 <= i < |bs| ==> WellFormed(bs[i])
    ensures RefundLoop(bs, name, spent).2
    ensures RefundLoop(bs, name, spent).1 == spent - PriceOfNamed(bs, name)
    decreases |bs|
  {
    if |bs| > 0 {
      var b := bs[0];
      assert WellFormed(b);
      RefundLoopStep(bs, name, spent);
      RefundLoopWellFormed(bs[1..], name, TurnSpent(b, name, spent));
    }
  }

  /**
   * When the labels up to `i` parse and button `i` is called `name`, the loop
   * counts its quantity label up by one.
   */
  lemma {:induction false} RefundLoopCountsUp(bs: seq<Button>, name: string, spent: int, i: int)
    requires 0 <= i < |bs| && bs[i].nameText == name
    requires forall j :: 0 <= j <= i ==> WellFormed(bs[j])
    ensures WellFormed(bs[i]) && RefundLoop(bs, name, spent).0[i] == CountedUp(bs[i])
    decreases i
  {
    assert WellFormed(bs[0]);
    RefundLoopStep(bs, name, spent);
    if i > 0 {
      var tail := bs[1..];
      assert forall j :: 0 <= j <= i - 1 ==> WellFormed(tail[j]) by {
        forall j | 0 <= j <= i - 1
          ensures WellFormed(tail[j])
        {
          assert tail[j] == bs[j + 1];
        }
      }
      RefundLoopCountsUp(tail, name, TurnSpent(bs[0], name, spent), i - 1);
      assert tail[i - 1] == bs[i];
    }
  }

  /** `RefundItem(itemName)`: every button of that name is refunded, not only the first. */
  function RefundItem(t: Tutorial, name: string): (r: Tutorial)
    ensures r.startingMoney == t.startingMoney && |r.buttons| == |t.buttons|
    ensures forall i :: 0 <= i < |t.buttons| ==>
      r.buttons[i].nameText == t.buttons[i].nameText && r.buttons[i].priceText == t.buttons[i].priceText
    ensures forall i :: 0 <= i < |t.buttons| && t.buttons[i].nameText != name ==> r.buttons[i] == t.buttons[i]
    ensures (forall i :: 0 <= i < |t.buttons| ==> WellFormed(t.buttons[i])) ==>
      && Remaining(r) == Remaining(t) + PriceOfNamed(t.buttons, name)
      && forall i :: 0 <= i < |t.buttons| && t.buttons[i].nameText == name ==>
           r.buttons[i].quantityText == QuantityText(ParseQuantity(t.buttons[i].quantityText).value + 1)
  {
    var res := RefundLoop(t.buttons, name, t.moneySpent);
    assert forall i :: 0 <= i < |t.buttons| ==>
      && res.0[i].nameText == t.buttons[i].nameText
      && res.0[i].priceText == t.buttons[i].priceText
      && (t.buttons[i].nameText != name ==> res.0[i] == t.buttons[i]) by {
      forall i | 0 <= i < |t.buttons|
        ensures KeptLabels(t.buttons[i], res.0[i], name)
      {
        RefundLoopKeeps(t.buttons, name, t.moneySpent, i);
      }
    }
    assert (forall i :: 0 <= i < |t.buttons| ==> WellFormed(t.buttons[i])) ==>
      && res.1 == t.moneySpent - PriceOfNamed(t.buttons, name)
      && forall i :: 0 <= i < |t.buttons| && t.buttons[i].nameText == name ==>
           WellFormed(t.buttons[i]) && res.0[i] == CountedUp(t.buttons[i]) by {
      if forall i :: 0 <= i < |t.buttons| ==> WellFormed(t.buttons[i]) {
        RefundLoopWellFormed(t.buttons, name, t.moneySpent);
        forall i | 0 <= i < |t.buttons| && t.buttons[i].nameText == name
          ensures WellFormed(t.buttons[i]) && res.0[i] == CountedUp(t.buttons[i])
        {
          RefundLoopCountsUp(t.buttons, name, t.moneySpent, i);
        }
      }
    }
    t.(buttons := res.0, moneySpent := res.1)
  }

  /** `ResetMoney`: nothing spent; the labels are left as they are. */
  function ResetMoney(t: Tutorial): (r: Tutorial)
    ensures r.moneySpent == 0 && Remaining(r) == t.startingMoney
    ensures r.buttons == t.buttons
  {
    t.(moneySpent := 0)
  }

  /** The total price of named buttons is the price of the one button when names are unique. */
  lemma {:induction false} PriceOfUnique(bs: seq<Button>, name: string, id: int)
    requires 0 <= id < |bs| && bs[id].nameText == name && ParseInt32(bs[id].priceText).Some?
    requires forall i :: 0 <= i < |bs| && i != id ==> bs[i].nameText != name
    ensures PriceOfNamed(bs, name) == ParseInt32(bs[id].priceText).value
    decreases |bs|
  {
    if id == 0 {
      PriceOfNone(bs[1..], name);
    } else {
      PriceOfUnique(bs[1..], name, id - 1);
    }
  }

  lemma {:induction false} PriceOfNone(bs: seq<Button>, name: string)
    requires forall i :: 0 <= i < |bs| ==> bs[i].nameText != name
    ensures PriceOfNamed(bs, name) == 0
    decreases |bs|
  {
    if |bs| > 0 {
      PriceOfNone(bs[1..], name);
    }
  }

  /**
   * Refunding a name only one button carries, with every label parseable,
   * counts that button's quantity label up by one, gives its price back, and
   * changes nothing else.
   */
  lemma {:induction false} RefundUnique(t: Tutorial, id: int)
    requires 0 <= id < |t.buttons|
    requires forall i :: 0 <= i < |t.buttons| ==> WellFormed(t.buttons[i])
    requires forall i :: 0 <= i < |t.buttons| && i != id ==> t.buttons[i].nameText != t.buttons[id].nameText
    ensures
      var b := t.buttons[id];
      var r := RefundItem(t, b.nameText);
      && Remaining(r) == Remaining(t) + ParseInt32(b.priceText).value
      && r.buttons == t.buttons[id := CountedUp(b)]
      && r.startingMoney == t.startingMoney
  {
    var b := t.buttons[id];
    assert WellFormed(b);
    PriceOfUnique(t.buttons, b.nameText, id);
    var r := RefundItem(t, b.nameText);
    assert r.buttons[id] == CountedUp(b);
    assert r.buttons == t.buttons[id := CountedUp(b)] by {
      forall i | 0 <= i < |t.buttons|
        ensures r.buttons[i] == t.buttons[id := CountedUp(b)][i]
      {
      }
    }
  }

  /** Counting a label down and then up again gives the label back. */
  lemma {:induction false} CountDownThenUp(b: Button, q: int)
    requires IntMin < q <= IntMax && b.quantityText == QuantityText(q)
    ensures ParseQuantity(QuantityText(q - 1)) == Some(q - 1)
    ensures CountedUp(b.(quantityText := QuantityText(q - 1))) == b
  {
    QuantityRoundTrip(q - 1);
  }

  /**
   * Buying an item and refunding it by name restores the money spent and the
   * quantity label, when the labels are as the manager writes them and the
   * name is unique.
   */
  lemma {:induction false} ChooseThenRefund(t: Tutorial, id: int, q: int)
    requires 0 <= id < |t.buttons|
    requires forall i :: 0 <= i < |t.buttons| ==> WellFormed(t.buttons[i])
    requires forall i :: 0 <= i < |t.buttons| && i != id ==> t.buttons[i].nameText != t.buttons[id].nameText
    requires IntMin <= q <= IntMax && t.buttons[id].quantityText == QuantityText(q)
    requires ChooseItem(t, id).1.Bought?
    ensures RefundItem(ChooseItem(t, id).0, t.buttons[id].nameText) == t
  {
    QuantityRoundTrip(q);
    var before := t.buttons[id];
    CountDownThenUp(before, q);
    var after := before.(quantityText := QuantityText(q - 1));
    var bought := ChooseItem(t, id).0;
    assert bought.buttons == t.buttons[id := after];
    assert forall i :: 0 <= i < |bought.buttons| ==> WellFormed(bought.buttons[i]);
    RefundUnique(bought, id);
    assert t.buttons[id := after][id := before] == t.buttons;
  }
}

=== FILE: tutorial_state_manager.dfy ===
/**
 * The tutorial sequencer of TutorialStateManager.cs. Each numbered step has a
 * `…Text` state, which types a narration line, and a `…Wait` state, which
 * waits for the player to do what the line asked. The narration itself and
 * the permissions handed to the build and tile managers are left out; every
 * condition the script polls is a boolean input.
 */
module TutorialStateManager {

  datatype State =
    | Zero
    | OneText | OneWait | TwoText | TwoWait | ThreeText | ThreeWait
    | FourText | FourWait | FiveText | FiveWait | SixText | SixWait
    | SevenText | SevenWait | EightText | EightWait | NineText | NineWait
    | TenText | TenWait | ElevenText | ElevenWait | TwelveText | TwelveWait
    | ThirteenText | ThirteenWait | FourteenText | FourteenWait
    | FifteenText | FifteenWait | SixteenText | SixteenWait
    | SeventeenText | SeventeenWait | EightteenText | EightteenWait
    | NineteenText | NineteenWait | TenpointfiveText | TenpointfiveWait

  predicate IsText(s: State) {
    s in {OneText, TwoText, ThreeText, FourText, FiveText, SixText, SevenText, EightText,
          NineText, TenText, ElevenText, TwelveText, ThirteenText, FourteenText, FifteenText,
          SixteenText, SeventeenText, EightteenText, NineteenText, TenpointfiveText}
  }

  predicate IsWait(s: State) {
    s in {OneWait, TwoWait, ThreeWait, FourWait, FiveWait, SixWait, SevenWait, EightWait,
          NineWait, TenWait, ElevenWait, TwelveWait, ThirteenWait, FourteenWait, FifteenWait,
          SixteenWait, SeventeenWait, EightteenWait, NineteenWait, TenpointfiveWait}
  }

  /** Every state but the first is either typing or waiting. */
  lemma {:induction false} StatesPartition(s: State)
    ensures s == Zero || IsText(s) != IsWait(s)
    ensures s == Zero ==> !IsText(s) && !IsWait(s)
  {
  }

  /** The wait state a text state hands over to once its line is typed. */
  function WaitFor(s: State): (w: State)
    requires IsText(s)
    ensures IsWait(w)
  {
    match s
    case OneText => OneWait
    case TwoText => TwoWait
    case ThreeText => ThreeWait
    case FourText => FourWait
    case FiveText => FiveWait
    case SixText => SixWait
    case SevenText => SevenWait
    case EightText => EightWait
    case NineText => NineWait
    case TenText => TenWait
    case ElevenText => ElevenWait
    case TwelveText => TwelveWait
    case ThirteenText => ThirteenWait
    case FourteenText => FourteenWait
    case FifteenText => FifteenWait
    case SixteenText => SixteenWait
    case SeventeenText => SeventeenWait
    case EightteenText => EightteenWait
    case NineteenText => NineteenWait
    case TenpointfiveText => TenpointfiveWait
  }

  /** Different lines hand over to different wait states. */
  lemma {:induction false} WaitForInjective(s: State, t: State)
    requires IsText(s) && IsText(t) && s != t
    ensures WaitFor(s) != WaitFor(t)
  {
  }

  /** Everything the script polls on a frame. */
  datatype Inputs = Inputs(
    narrationUsable: bool,   // the narration panel reports it can be used
    typing: bool,            // the typewriter is still typing
    planning: bool,          // the game is in its plan phase
    levelDone: bool,         // every package delivered or lost
    holdingBuilding: bool,   // the build manager has a building in hand
    tile1Occupied: bool,
    tile2Occupied: bool,
    tile1FacesRight: bool,   // the building on Tile1 is turned between 89 and 91 degrees
    tile1FacesGoal: bool,    // the building on Tile1 is turned between 44 and 46 degrees
    cameraRotated: bool,     // the camera's yaw left the 40-46 degree band
    cameraZoomed: bool,      // the orthographic size left the 5-7 band
    cameraPanned: bool,      // the camera rig's x coordinate is not 0 (the script tests x twice)
    controlsShown: bool)     // the controls panel's animator has "show" set

  datatype Tutorial = Tutorial(currState: State, textFlag: bool, eighteenWaitFlag: bool)

  /** A frame's result: the new sequencer state, and whether a narration line started typing. */
  datatype Frame = Frame(next: Tutorial, startedTyping: bool)

  /**
   * The shared shape of every `…Text` case: start the line once, and move on
   * when it is typed. Starting the typewriter runs it up to its first pause,
   * which already marks it as typing (every line has a printable character),
   * so on the frame a line starts the typing test always fails.
   */
  function TextStep(t: Tutorial, i: Inputs): (r: Frame)
    requires IsText(t.currState)
  {
    if t.textFlag then Frame(t.(textFlag := false), true)
    else if !i.typing then Frame(t.(currState := WaitFor(t.currState), textFlag := true), false)
    else Frame(t, false)
  }

  /** Move to `s`, keeping both flags. */
  function Goto(t: Tutorial, s: State): Tutorial {
    t.(currState := s)
  }

  /**
   * The `…Wait` cases of `Update`, and `zero`: each waits for the condition its
   * line asked for and moves on once it holds. None of them starts a line.
   */
  function WaitStep(t: Tutorial, i: Inputs): (r: Tutorial)
    requires !IsText(t.currState)
    ensures r.textFlag == (t.textFlag || (t.currState == OneWait && i.levelDone))
    ensures t.currState != EightteenWait ==> r.eighteenWaitFlag == t.eighteenWaitFlag
    ensures t.currState == Zero ==> r.currState == (if i.narrationUsable then OneText else Zero)
    ensures t.currState in {OneWait, NineWait, FourteenWait} ==>
      (r.currState != t.currState <==> i.levelDone)
    ensures t.currState == OneWait && i.levelDone ==> r.currState == TwoText
    ensures t.currState == NineWait && i.levelDone ==> r.currState == TenText
    ensures t.currState == FourteenWait && i.levelDone ==> r.currState == FifteenText
    ensures t.currState == TwoWait ==> r.currState == (if i.planning then ThreeText else TwoWait)
    ensures t.currState == ThreeWait ==> r.currState == (if i.holdingBuilding then FourText else ThreeWait)
    ensures t.currState == FourWait ==> r.currState == (if i.tile1Occupied then FiveText else FourWait)
    ensures t.currState == FiveWait ==> r.currState == (if i.holdingBuilding then SixText else FiveWait)
    ensures t.currState == SixWait ==>
      r.currState == (if !i.tile1Occupied then SixWait else if i.tile1FacesRight then EightText else SevenText)
    ensures t.currState == SevenWait ==> r.currState == (if i.holdingBuilding then SixWait else SevenWait)
    ensures t.currState == EightWait ==> r.currState == (if i.tile2Occupied then NineText else EightWait)
    ensures t.currState == TenWait ==> r.currState == (if i.planning then TenpointfiveText else TenWait)
    ensures t.currState == ElevenWait ==>
      r.currState == (if !i.tile1Occupied && !i.tile2Occupied && !i.holdingBuilding then TwelveText else ElevenWait)
    ensures t.currState == TwelveWait ==>
      r.currState == (if !i.tile1Occupied then TwelveWait else if i.tile1FacesGoal then FourteenText else ThirteenText)
    ensures t.currState == ThirteenWait ==> r.currState == (if i.holdingBuilding then TwelveWait else ThirteenWait)
    ensures t.currState == FifteenWait ==> r.currState == (if i.cameraRotated then SixteenText else FifteenWait)
    ensures t.currState == SixteenWait ==> r.currState == (if i.cameraZoomed then SeventeenText else SixteenWait)
    ensures t.currState == SeventeenWait ==> r.currState == (if i.cameraPanned then EightteenText else SeventeenWait)
    ensures t.currState in {TenpointfiveWait, NineteenWait} ==> r == t
    // eighteen clears its flag when the controls are shown, and leaves only when they are hidden with the flag down
    ensures t.currState == EightteenWait ==>
      && r.eighteenWaitFlag == (t.eighteenWaitFlag && !i.controlsShown)
      && r.currState == (if !i.controlsShown && !t.eighteenWaitFlag then NineteenText else EightteenWait)
  {
    match t.currState
    case Zero => if i.narrationUsable then Goto(t, OneText) else t
    case OneWait => if i.levelDone then t.(currState := TwoText, textFlag := true) else t
    case TwoWait => if i.planning then Goto(t, ThreeText) else t
    case ThreeWait => if i.holdingBuilding then Goto(t, FourText) else t
    case FourWait => if i.tile1Occupied then Goto(t, FiveText) else t
    case FiveWait => if i.holdingBuilding then Goto(t, SixText) else t
    case SixWait =>
      if i.tile1Occupied then Goto(t, if i.tile1FacesRight then EightText else SevenText) else t
    case SevenWait => if i.holdingBuilding then Goto(t, SixWait) else t
    case EightWait => if i.tile2Occupied then Goto(t, NineText) else t
    case NineWait => if i.levelDone then Goto(t, TenText) else t
    case TenWait => if i.planning then Goto(t, TenpointfiveText) else t
    case TenpointfiveWait => t
    case ElevenWait =>
      if !i.tile1Occupied && !i.tile2Occupied && !i.holdingBuilding then Goto(t, TwelveText) else t
    case TwelveWait =>
      if i.tile1Occupied then Goto(t, if i.tile1FacesGoal then FourteenText else ThirteenText) else t
    case ThirteenWait => if i.holdingBuilding then Goto(t, TwelveWait) else t
    case FourteenWait => if i.levelDone then Goto(t, FifteenText) else t
    case FifteenWait => if i.cameraRotated then Goto(t, SixteenText) else t
    case SixteenWait => if i.cameraZoomed then Goto(t, SeventeenText) else t
    case SeventeenWait => if i.cameraPanned then Goto(t, EightteenText) else t
    case EightteenWait =>
      var t1 := if i.controlsShown then t.(eighteenWaitFlag := false) else t;
      if !i.controlsShown && !t1.eighteenWaitFlag then Goto(t1, NineteenText) else t1
    case NineteenWait => t
    case _ => t
  }

  /** One call of `Update`: a text state types its line, any other state waits. */
  function Update(t: Tutorial, i: Inputs): (r: Frame)
    // a line starts typing exactly when a text state is entered with the flag raised
    ensures r.startedTyping <==> IsText(t.currState) && t.textFlag
    // the line is typed over later frames: the state moves on only once the flag is down
    ensures IsText(t.currState) ==>
      if t.textFlag then r.next == t.(textFlag := false)
      else if i.typing then r.next == t
      else r.next == t.(currState := WaitFor(t.currState), textFlag := true)
    ensures !IsText(t.currState) ==> r.next == WaitStep(t, i)
  {
    if IsText(t.currState) then TextStep(t, i) else Frame(WaitStep(t, i), false)
  }

  /** `tenpointfive_wait_continue`: the optimal-cost button jumps to step eleven from anywhere. */
  function TenpointfiveWaitContinue(t: Tutorial): (r: Tutorial)
    ensures r.currState == ElevenText
    ensures r.textFlag == t.textFlag && r.eighteenWaitFlag == t.eighteenWaitFlag
  {
    t.(currState := ElevenText)
  }

  /** The sequencer's invariant: the flag is down only while a line is being typed. */
  predicate Valid(t: Tutorial) {
    t.textFlag || IsText(t.currState)
  }

  /** The tutorial as the scene starts it. */
  function Start(): (t: Tutorial)
    ensures Valid(t) && t.currState == Zero
  {
    Tutorial(Zero, true, true)
  }

  /** Both entry points keep the invariant. */
  lemma {:induction false} UpdateKeepsValid(t: Tutorial, i: Inputs)
    requires Valid(t)
    ensures Valid(Update(t, i).next)
    ensures Valid(TenpointfiveWaitContinue(t))
  {
  }

  /** So whenever the sequencer waits, the flag is up, ready for the next line. */
  lemma {:induction false} WaitingMeansFlagUp(t: Tutorial)
    requires Valid(t) && IsWait(t.currState)
    ensures t.textFlag
  {
    StatesPartition(t.currState);
  }

  /**
   * A line starts typing once: the frame that starts it stays in its state with
   * the flag down, and the next frame, whatever it sees, does not start it again.
   */
  lemma {:induction false} TypingStartsOnce(t: Tutorial, i1: Inputs, i2: Inputs)
    requires Update(t, i1).startedTyping
    ensures Update(t, i1).next.currState == t.currState && !Update(t, i1).next.textFlag
    ensures !Update(Update(t, i1).next, i2).startedTyping
  {
  }

  /** Frames in order. */
  function Run(t: Tutorial, ins: seq<Inputs>): Tutorial
    decreases |ins|
  {
    if |ins| == 0 then t else Run(Update(t, ins[0]).next, ins[1..])
  }

  /**
   * Along any run of frames the invariant holds throughout, so a wait state is
   * never reached with the flag down.
   */
  lemma {:induction false} RunKeepsValid(t: Tutorial, ins: seq<Inputs>)
    requires Valid(t)
    ensures Valid(Run(t, ins))
    ensures IsWait(Run(t, ins).currState) ==> Run(t, ins).textFlag
    decreases |ins|
  {
    if |ins| > 0 {
      UpdateKeepsValid(t, ins[0]);
      RunKeepsValid(Update(t, ins[0]).next, ins[1..]);
    } else {
      StatesPartition(t.currState);
    }
  }

  /**
   * Step eighteen ends only after the controls panel has been shown and then
   * hidden: a run that starts there with the flag up and gets out has a frame
   * with the panel shown followed by a later frame with it hidden.
   */
  lemma {:induction false} EighteenNeedsShowThenHide(t: Tutorial, ins: seq<Inputs>)
    requires t.currState == EightteenWait
    ensures Run(t, ins).currState != EightteenWait && t.eighteenWaitFlag ==>
      exists j, k :: 0 <= j < k < |ins| && ins[j].controlsShown && !ins[k].controlsShown
    ensures Run(t, ins).currState != EightteenWait ==>
      exists k :: 0 <= k < |ins| && !ins[k].controlsShown
    decreases |ins|
  {
    if |ins| == 0 || Run(t, ins).currState == EightteenWait {
      return;
    }
    var next := Update(t, ins[0]).next;
    assert Run(t, ins) == Run(next, ins[1..]);
    if next.currState == EightteenWait {
      EighteenNeedsShowThenHide(next, ins[1..]);
      var k :| 0 <= k < |ins[1..]| && !ins[1..][k].controlsShown;
      assert !ins[k + 1].controlsShown;
      if t.eighteenWaitFlag {
        if ins[0].controlsShown {
          assert 0 < k + 1 < |ins|;
        } else {
          assert next.eighteenWaitFlag;
          var j, k' :| 0 <= j < k' < |ins[1..]| && ins[1..][j].controlsShown && !ins[1..][k'].controlsShown;
          assert ins[j + 1].controlsShown && !ins[k' + 1].controlsShown;
        }
      }
    } else {
      assert !ins[0].controlsShown;
    }
  }
}
